=== FILE: README.md ===
# Vibecheck core, modelled in Dafny

Vibecheck matches Spotify listeners by their "vibe". This project models the parts of
the system that compute or decide something:

- **The vibe analysis** (`client/src/utils/vibe-analysis.ts`):
  - fetching audio features in batches of 100 (`getAudioFeatures`);
  - building a vibe profile (`createVibeProfile`): the features are paired with the tracks by position, averaged into a "vibe vector", and the top five genres are counted;
  - the compatibility score, which blends three similarities with weights 70/20/10:
    - cosine similarity of the vibe vectors;
    - Jaccard similarity of the genres;
    - the share of common tracks;
  - the list of compatible users (score 70 or more, best first).
- **The Express server** (`server.js`):
  - the random login state and the callback's state check;
  - `createUltimatePlaylist`, which merges the top tracks of three time ranges into one playlist.
- **The mini app's monthly usage limit** (`client/src/utils/context-detection.ts`): five uses per 30 days, kept in `localStorage`.
- **The serverless user table and its route**: `UserStorage` (`api/lib/storage.js`) and the `/api/users` handler (`api/users/index.js`).
- **The dashboard's directory**: its search filter, its three sort orders and its colour ladder (`client/src/pages/Dashboard.tsx`).

## How the model is built

**Pure code becomes functions.** Similarities, averages, the score and the filters are
functions over datatypes. Lemmas state their properties: bounds, symmetry, self-similarity,
permutation, ordering and stability.

**Code that changes state becomes imperative Dafny.**
- `UserStorage` is a class.
- The Express server is a class. Its state is:
  - the `users` map;
  - one client's session;
  - a log of the code exchange and of the requests that change the playlist, sent to Spotify.
- The mutable user object is a class with a `playlistId` field. The session and the map share it.
- `localStorage` is a class holding a map.
- The loops of the source are methods with invariants:
  - the batching loops;
  - the dot product;
  - the genre count;
  - the `Set` merge of top tracks;
  - the random string.

  Each method is proved equal to a specification function, and the lemmas are about that function.

**The outside world is passed in as parameters:**
- Spotify's answers;
- `Math.random`, `Math.sqrt` and `Date.now`;
- the detected app context;
- the id of a newly created playlist.

**JavaScript semantics:**
- `Array.prototype.sort` is stable, so a sort with a key-difference comparator is modelled as a stable insertion sort by that key. A descending comparator sorts ascending by the negated key.
- A JavaScript `Set` is modelled as the first-seen de-duplication of its input.
- `Math.round` is `floor(x + 0.5)`.
- Numbers are exact reals.

**Facts the proofs bring out:**
- **The average is seeded with the default record.** `calculateAverageFeatures` seeds its `reduce` with the default record and then divides by the number of tracks. So a single track with energy 0.9 averages to energy 1.4, and a vibe vector can leave the documented ranges. See `Features.AverageOfOneTrack` and `Features.AverageCanLeaveRanges`. The model keeps this behaviour as written.
- **Features are paired by position.** The fetched records are matched to the tracks by index after two things have shortened the list. Tracks without an id are dropped from the request, and null answers are dropped from the response. Either way, later tracks receive their neighbours' features and the last tracks fall back to the default. See `VibeProfiles.MisalignedWhenIdMissing` and `VibeProfiles.MisalignedWhenFeatureNull`.
- **Any thrown feature request resets every track.** Every track then gets the default features.
- **The callback always creates a new playlist.** It builds a fresh user object that has no `playlistId`. So every successful login that finds top tracks creates a new playlist. See `ApiServer.CallbackAlwaysCreates`.
- **The state check can pass with no state at all.** The check is a strict comparison, so a callback with no `state` passes on a session that never logged in.
- **Compatibility can be negative.** The vibe vector can have negative components (loudness below -60 dB normalises below 0), so the score is bounded by [-70, 100]. It is guaranteed to lie in [0, 100] when no component is negative.

## Model

| member | source | states |
|---|---|---|
| Common.Round | client/src/utils/vibe-analysis.ts:160 | `Math.round`: the result is the integer within half a unit of x, a half rounding up |
| Text.Lower | client/src/utils/vibe-analysis.ts:215 | `toLowerCase`, ASCII only; a definition, whose properties are stated by `Text.LowerProperties` and `Text.LowerIgnoresCase` |
| Text.LowerProperties | client/src/utils/vibe-analysis.ts:215 | `toLowerCase` keeps the length, turns each upper-case letter into its lower-case letter (code + 32), leaves no upper-case letter and changes no other character |
| Text.LowerIgnoresCase | client/src/utils/vibe-analysis.ts:215-216 | two strings lower-case alike exactly when they differ only in ASCII letter case, which is what makes the genre sets case-insensitive |
| Text.Trim | client/src/utils/vibe-analysis.ts:282 | `trim`, ASCII white space; a definition, whose properties are stated by `Text.TrimProperties` |
| Text.TrimProperties | client/src/utils/vibe-analysis.ts:282 | `trim` returns the slice of the string between its leading and trailing white space: all it drops is white space, and the slice neither starts nor ends with white space |
| Text.Contains | client/src/pages/Dashboard.tsx:66 | `includes`: the substring occurs at some position; a definition, used by `Directory.FilterMembers`; the empty string is contained everywhere (`Text.ContainsEmpty`) |
| Chunking.SplitIntoChunks | client/src/utils/vibe-analysis.ts:41-44 | the batching loop builds exactly the consecutive slices of the given size |
| Chunking.ChunkCount | client/src/utils/vibe-analysis.ts:42-44 | there are ceil(n / size) slices: size times their number covers n by less than one slice |
| Seqs.Dedup | server.js:166-177 | a JavaScript `Set` filled in order: the first occurrence of each element, in first-seen order; a definition, whose properties are stated by `Seqs.DedupMembers`, `Seqs.DedupDistinct` and `Seqs.DedupFirstSeenOrder` and used by `ApiServer.MergedDistinct` and `ApiServer.MergedMembersInOrder` |
| StableSort.SortBy | client/src/utils/vibe-analysis.ts:287 | `sort` with a key-difference comparator, as a stable insertion sort by ascending key; a definition, whose properties are stated by `StableSort.SortByOrdered` and `StableSort.SortByStable` |
| StableSort.SortByOrdered | client/src/utils/vibe-analysis.ts:287 | the sort result is ordered by key and is a permutation of its input |
| StableSort.SortByStable | client/src/utils/vibe-analysis.ts:326 | the sort is stable: for every key, the elements with that key keep their input order |
| StableSort.SortByConstantKey | client/src/pages/Dashboard.tsx:75-77 | a comparator that always answers 0 leaves the array unchanged |
| Features.DefaultAudioFeatures | client/src/utils/vibe-analysis.ts:295-310 | the neutral record; a definition, shown within the documented ranges by `Features.DefaultInConventionalRanges` and non-zero as a vector by `AudioSimilarity.DefaultVectorNonZero` |
| Features.AverageFeatures | client/src/utils/vibe-analysis.ts:240-273 | `calculateAverageFeatures`; a definition, whose meaning is stated by `Features.AverageIncludesDefault`, `Features.AverageOfOneTrack` and `Features.AverageCanLeaveRanges` |
| Features.Add | client/src/utils/vibe-analysis.ts:243-256 | one `reduce` step adds the two records field by field |
| Features.Reduce | client/src/utils/vibe-analysis.ts:243-256 | the seeded field-by-field `reduce`; a definition, whose meaning is stated by `Features.ReduceIsSeedPlusSum` |
| Features.ReduceIsSeedPlusSum | client/src/utils/vibe-analysis.ts:243-256 | the `reduce` yields, per field, its seed plus the sum of the field over the records |
| Features.AverageIncludesDefault | client/src/utils/vibe-analysis.ts:240-273 | the default record for no input; otherwise each field is (default + sum) / count, rounded for key, mode and time signature |
| Features.AverageOfOneTrack | client/src/utils/vibe-analysis.ts:240-273 | because of the default seed, one track with energy 0.9 averages to 1.4 |
| Features.AverageCanLeaveRanges | client/src/utils/vibe-analysis.ts:240-273 | a record within the documented ranges can average to one outside them |
| Features.ToVector | client/src/utils/vibe-analysis.ts:191-206 | `audioFeaturesToVector` yields twelve components |
| Features.VectorInUnitRange | client/src/utils/vibe-analysis.ts:191-206 | a record within the documented ranges normalises into [0, 1] in every component |
| Features.DefaultInConventionalRanges | client/src/utils/vibe-analysis.ts:295-310 | the neutral record lies within the documented ranges |
| FeatureFetch.Present | client/src/utils/vibe-analysis.ts:53 | `filter(Boolean)` keeps at most as many entries as it is given |
| FeatureFetch.PresentAppend | client/src/utils/vibe-analysis.ts:53 | `filter(Boolean)` of a concatenation is the concatenation of the filtered parts |
| FeatureFetch.PresentMembers | client/src/utils/vibe-analysis.ts:53 | a record is kept exactly when it is a non-null entry |
| FeatureFetch.PresentSingles | client/src/utils/vibe-analysis.ts:53 | a null entry contributes nothing and a record contributes itself; with `PresentAppend` this fixes the result on every input: the non-null entries, in order |
| FeatureFetch.GetAudioFeatures | client/src/utils/vibe-analysis.ts:38-62 | the two loops return exactly `FetchedFeatures`: the non-null answers of every batch, or nothing once a request throws |
| FeatureFetch.GatheredStaysNone | client/src/utils/vibe-analysis.ts:58-61 | once a request has thrown, later batches cannot bring a result back |
| FeatureFetch.RequestsAreBatched | client/src/utils/vibe-analysis.ts:40-44 | every request carries 1 to 100 ids; the batches are the ids in order; there are ceil(n / 100) of them |
| FeatureFetch.ThrowEmptiesResult | client/src/utils/vibe-analysis.ts:39-61 | one throwing request makes the whole result empty |
| FeatureFetch.GatheredAtMostRequested | client/src/utils/vibe-analysis.ts:48-55 | if no answer is longer than its batch, the gathered features are no more than the ids sent |
| FeatureFetch.FeaturesAtMostIds | client/src/utils/vibe-analysis.ts:38-57 | under the same condition, `getAudioFeatures` returns no more features than ids |
| FeatureFetch.FeaturesOf | client/src/utils/vibe-analysis.ts:48-55 | a reference definition, not a property: the record of each id, in order; the batching is proved against it by `FeatureFetch.GatheredComplete` and `FeatureFetch.FetchedComplete` |
| FeatureFetch.GatheredComplete | client/src/utils/vibe-analysis.ts:48-55 | a service that knows every id makes the gathered features exactly the records of all ids, in order |
| FeatureFetch.FetchedComplete | client/src/utils/vibe-analysis.ts:38-57 | with such a service, `getAudioFeatures` returns one record per id, in order |
| Genres.Normalize | client/src/utils/vibe-analysis.ts:282 | `genre.toLowerCase().trim()`; a definition, whose properties follow from `Text.LowerProperties` and `Text.TrimProperties` |
| Genres.NormalizeAll | client/src/utils/vibe-analysis.ts:281-284 | the normalised genres in input order, one per input genre; what `Genres.CountGenres` tallies and what `Genres.TopGenresRanked` and `VibeProfiles.ProfileGenres` speak of |
| Genres.TallyStep | client/src/utils/vibe-analysis.ts:283 | one count update keeps the table equal to the multiplicities of the genres seen, its keys in first-seen order |
| Genres.CountGenres | client/src/utils/vibe-analysis.ts:279-284 | the `forEach` builds the table of counts of the normalised genres, keys in insertion order |
| Genres.TopGenres | client/src/utils/vibe-analysis.ts:278-290 | `getTopGenres` returns exactly `TopGenresOf`: the table's entries stably sorted by count, descending, cut to five |
| Genres.EntriesFacts | client/src/utils/vibe-analysis.ts:286 | the table's entries are distinct; each carries its genre's true count; every genre seen has one |
| Genres.SortedEntriesFacts | client/src/utils/vibe-analysis.ts:286-287 | the sorted entries are the table's entries, distinct and ordered by count |
| Genres.TopGenresRanked | client/src/utils/vibe-analysis.ts:278-290 | min(5, distinct genres) results, distinct, each a normalised input genre, by non-increasing count |
| Genres.TopGenresAreMostFrequent | client/src/utils/vibe-analysis.ts:286-288 | a genre left out means five were kept, each at least as frequent as it |
| Genres.TopGenresTiesFirstSeen | client/src/utils/vibe-analysis.ts:286-288 | among equal counts the kept genres are the first-seen ones, in first-seen order |
| Genres.GenreSimilarity | client/src/utils/vibe-analysis.ts:211-222 | `calculateGenreSimilarity`: 1 for two empty lists, 0 for one, else the Jaccard ratio of the lower-cased sets; a definition, whose properties are stated by the five lemmas below |
| Genres.GenreSimilarityBounds | client/src/utils/vibe-analysis.ts:211-222 | genre similarity lies in [0, 1] |
| Genres.GenreSimilaritySymmetric | client/src/utils/vibe-analysis.ts:215-221 | genre similarity does not depend on argument order |
| Genres.GenreSimilaritySelf | client/src/utils/vibe-analysis.ts:212-221 | every genre list, empty or not, has similarity 1 with itself |
| Genres.GenreSimilarityExamples | client/src/utils/vibe-analysis.ts:212-216 | two empty lists give 1, one empty list gives 0, and matching ignores case |
| Genres.GenreSimilarityOneThird | client/src/utils/vibe-analysis.ts:215-221 | one shared genre among three distinct ones gives 1/3 |
| VibeProfiles.TrackIds | client/src/utils/vibe-analysis.ts:75 | `filter(Boolean)` keeps no empty id and no more ids than tracks |
| VibeProfiles.TrackIdsAllPresent | client/src/utils/vibe-analysis.ts:75 | with every id present, the id list is the tracks' ids one for one |
| VibeProfiles.CreateVibeProfile | client/src/utils/vibe-analysis.ts:67-117 | the profile is exactly `VibeProfileOf`: positional pairing, seeded average, top genres of all artists |
| VibeProfiles.PairFeatures | client/src/utils/vibe-analysis.ts:81-87 | `tracks.map((track, index) => ... audioFeatures[index] || default)`; a definition, whose meaning is stated by `VibeProfiles.ProfileTracks`, `VibeProfiles.AlignedWhenComplete` and the two misalignment witnesses |
| VibeProfiles.ProfileTracks | client/src/utils/vibe-analysis.ts:81-92 | the pairing rule spelled out position by position (a statement of the definition, not a derived result): every track is kept with its own fields; track i has the i-th fetched record or the default; the average is over one record per track |
| VibeProfiles.AlignedWhenComplete | client/src/utils/vibe-analysis.ts:75-87 | with every id present and known, each track gets its own record |
| VibeProfiles.MisalignedWhenIdMissing | client/src/utils/vibe-analysis.ts:75-87 | a track without an id shifts the pairing: it gets its neighbour's record, and the last track gets the default |
| VibeProfiles.MisalignedWhenFeatureNull | client/src/utils/vibe-analysis.ts:53-86 | a null answer for a known id shifts the pairing: the first track gets the second track's record, and the second track gets the default |
| VibeProfiles.DefaultsWhenFetchThrows | client/src/utils/vibe-analysis.ts:78-86 | when any feature request throws, every track gets the default record |
| VibeProfiles.ArtistGenresMembers | client/src/utils/vibe-analysis.ts:96 | a genre is collected exactly when some artist lists it; absent lists count as empty |
| VibeProfiles.TrackGenresMembers | client/src/utils/vibe-analysis.ts:95-97 | a genre is collected exactly when some track has an artist that lists it |
| VibeProfiles.ProfileGenres | client/src/utils/vibe-analysis.ts:94-98 | at most five top genres, each the normalisation of a collected genre |
| AudioSimilarity.CosineSimilarity | client/src/utils/vibe-analysis.ts:166-186 | the dot-product loop and the zero guard give exactly `Cosine` |
| AudioSimilarity.DotSymmetric | client/src/utils/vibe-analysis.ts:172-175 | the dot product does not depend on argument order |
| AudioSimilarity.DotSelfNonNegative | client/src/utils/vibe-analysis.ts:178-179 | a vector's dot product with itself is never negative |
| AudioSimilarity.DotNonNegative | client/src/utils/vibe-analysis.ts:172-175 | vectors without negative components have a non-negative dot product |
| AudioSimilarity.CauchySchwarz | client/src/utils/vibe-analysis.ts:178-185 | the dot product is at most the product of the magnitudes, in absolute value |
| AudioSimilarity.CosineSymmetric | client/src/utils/vibe-analysis.ts:166-186 | cosine similarity does not depend on argument order |
| AudioSimilarity.CosineBounds | client/src/utils/vibe-analysis.ts:166-186 | with a true square root, cosine similarity lies in [-1, 1] |
| AudioSimilarity.CosineNonNegative | client/src/utils/vibe-analysis.ts:166-186 | for vectors without negative components it is at least 0 |
| AudioSimilarity.CosineSelf | client/src/utils/vibe-analysis.ts:182-185 | a non-zero vector has similarity 1 with itself |
| AudioSimilarity.DefaultVectorNonZero | client/src/utils/vibe-analysis.ts:295-310 | the default record's vector is non-zero |
| Compatibility.TrackSimilarity | client/src/utils/vibe-analysis.ts:227-235 | `calculateTrackSimilarity`: common distinct URIs over the longer list's length; a definition, whose properties are stated by the three lemmas below |
| Compatibility.TrackSimilarityBounds | client/src/utils/vibe-analysis.ts:227-235 | track similarity lies in [0, 1] |
| Compatibility.TrackSimilaritySymmetric | client/src/utils/vibe-analysis.ts:227-235 | track similarity does not depend on argument order |
| Compatibility.TrackSimilaritySelf | client/src/utils/vibe-analysis.ts:227-235 | a non-empty track list has similarity 1 with itself exactly when no URI repeats |
| Compatibility.CompatibilityScore | client/src/utils/vibe-analysis.ts:122-161 | `calculateCompatibilityScore`: the rounded 70/20/10 blend of cosine, genre and track similarity, scaled to 100; a definition, whose properties are stated by the five lemmas below |
| Compatibility.CompatibilitySymmetric | client/src/utils/vibe-analysis.ts:122-161 | the score does not depend on argument order |
| Compatibility.CompatibilityBounds | client/src/utils/vibe-analysis.ts:122-161 | with a true square root the score lies in [-70, 100] |
| Compatibility.CompatibilityNonNegative | client/src/utils/vibe-analysis.ts:122-161 | without negative vector components the score lies in [0, 100] |
| Compatibility.CompatibilitySelf | client/src/utils/vibe-analysis.ts:122-161 | a profile with a non-zero vector and distinct track URIs scores 100 against itself |
| Compatibility.CompatibilityWithoutTracks | client/src/utils/vibe-analysis.ts:140-151 | the same vector and genres but no tracks score 90, as the track term is 0 |
| Compatibility.FindCompatibleUsers | client/src/utils/vibe-analysis.ts:315-327 | `findCompatibleUsers`: the other users scoring 70 or more, stably sorted by descending score; a definition, whose properties are stated by the three lemmas below |
| Compatibility.QualifyingMembers | client/src/utils/vibe-analysis.ts:319-325 | a candidate is exactly another user's profile, with its true score, scoring 70 or more |
| Compatibility.FindCompatibleUsersSpec | client/src/utils/vibe-analysis.ts:315-327 | the result is a permutation of the candidates, by non-increasing score, equal scores in input order |
| Compatibility.FindCompatibleUsersExcludesSelf | client/src/utils/vibe-analysis.ts:320-325 | the caller never appears, and every result scores at least 70 |
| ApiServer.CharFor | server.js:45 | the character picked for a draw in [0, 1) is one of the 62 |
| ApiServer.GenerateRandomString | server.js:41-48 | the string has the requested length, only characters of the alphabet, and is the one the draws determine |
| ApiServer.SpotifyUser.constructor | server.js:122-128 | a new user object carries the grant's fields and no playlist id |
| ApiServer.Server.constructor | server.js:11 | the server starts with no users, no session and an empty request log |
| ApiServer.Server.Login | server.js:88-90 | login stores a fresh 16-character state in the session and changes nothing else |
| ApiServer.Server.Callback | server.js:105-143 | a differing state answers 400 and changes nothing; a failed exchange redirects with an error; success stores a fresh user in the session and the map and makes the playlist requests of a user without a playlist |
| ApiServer.Server.CreateUltimatePlaylist | server.js:152-224 | the playlist requests (create, remove, add) are exactly `PlaylistActions`; the playlist id is recorded on the user and in the map only when a playlist is created |
| ApiServer.Server.EnsurePlaylist | server.js:192-203 | a user without a playlist gets the new one, recorded on the user and in the map, with one creation request |
| ApiServer.Server.AddInChunks | server.js:213-217 | one add request per chunk of at most 100 URIs, in order |
| ApiServer.MergeTopTracks | server.js:165-183 | the nested loops give exactly the first-seen de-duplication of the three ranges' URIs |
| ApiServer.AddToSet | server.js:175-177 | adding URIs to the `Set` yields the de-duplication of everything added so far |
| ApiServer.MergedDistinct | server.js:166-183 | the merged list holds each URI once |
| ApiServer.MergedMembersInOrder | server.js:165-183 | a URI is merged exactly when some range returned it; the merged order is first-seen order over short, medium, long term |
| ApiServer.FailedRangeContributesNothing | server.js:169-180 | a range whose request throws counts as empty, and the others are still merged |
| ApiServer.PlaylistActionsSpec | server.js:185-217 | no URI means no playlist request; a creation exactly when URIs exist and no playlist is recorded; the adds are the merged list in chunks of 1 to 100 |
| ApiServer.CallbackAlwaysCreates | server.js:122-135 | since the callback's user object has no playlist id, every login with top tracks creates a playlist |
| UsageLimits.StaleIsThirtyDays | client/src/utils/context-detection.ts:56-59 | the integer staleness test equals "more than 30 days since the reset" |
| UsageLimits.GetUsageStats | client/src/utils/context-detection.ts:104-130 | remaining is -1 exactly for no user or the web app, and otherwise never negative |
| UsageLimits.UsageStore.HasReachedUsageLimit | client/src/utils/context-detection.ts:42-68 | the answer and the new storage are exactly `LimitReached` and `AfterLimitCheck` |
| UsageLimits.UsageStore.IncrementUsageCount | client/src/utils/context-detection.ts:73-99 | the new storage is exactly `Incremented` |
| UsageLimits.WebHasNoLimits | client/src/utils/context-detection.ts:46 | on the web nothing is limited, written or counted, and the stats say unlimited |
| UsageLimits.NoUserNoLimit | client/src/utils/context-detection.ts:43 | without a user id there is no limit, no write and unlimited stats |
| UsageLimits.IncrementRecord | client/src/utils/context-detection.ts:77-98 | the record rules spelled out case by case (a statement of the definition, not a derived result): an increment writes only the user's record: {1, now} when the record is new, unreadable or stale, else {count + 1, lastReset} |
| UsageLimits.LimitCheckSpec | client/src/utils/context-detection.ts:48-64 | the record rules spelled out case by case (a statement of the definition, not a derived result): "reached" exactly for a fresh record with at least 5 uses; only a stale record is rewritten, as {0, now} |
| UsageLimits.LimitAgreesWithStats | client/src/utils/context-detection.ts:64 | the limit is reached exactly when the stats show 0 remaining |
| UsageLimits.UsesAtCount | client/src/utils/context-detection.ts:81-94 | from no record, n uses that all fall within 30 days of the first leave {count: n, lastReset: time of the first use} |
| UsageLimits.FiveUsesReachLimit | client/src/utils/context-detection.ts:56-64 | from no record, after n uses spread over at most 30 days, a check within 30 days of the first use finds the limit reached exactly when n >= 5, with max(0, 5 - n) remaining |
| UsageLimits.WindowResets | client/src/utils/context-detection.ts:91-92 | after 30 days the limit is lifted, the stats reset, and the next use counts as the first |
| UserStore.MergeRecord | api/lib/storage.js:38-42 | the merged record has the new data's fields, the old record's other fields, and the write's time stamp |
| UserStore.Summarize | api/lib/storage.js:48-53 | a definition: a summary holds id, display name, time stamp and playlist id read from the record; the `Summary` type has no token field |
| UserStore.UserStorage.constructor | api/lib/storage.js:9-23 | a storage without a data file starts empty |
| UserStore.UserStorage.GetUser | api/lib/storage.js:33-35 | the stored record for a known id, null otherwise |
| UserStore.UserStorage.SetUser | api/lib/storage.js:37-45 | the merged record is stored and returned; no other entry changes; a new id goes last in the order |
| UserStore.UserStorage.GetAllUsers | api/lib/storage.js:47-55 | one summary per stored user, in insertion order |
| UserStore.UserStorage.ClearAllUsers | api/lib/storage.js:57-62 | the table is emptied and its former size is returned |
| UserStore.TableSize | api/lib/storage.js:58 | the list of keys is as long as the table |
| UserStore.OneSummaryPerUser | api/lib/storage.js:47-55 | the listing has one entry per stored user |
| UsersApi.Handle | api/users/index.js:3-42 | CORS headers always; OPTIONS 200; GET lists every user with the count; DELETE with the secret clears and reports the count, without it 401; other methods 405 |
| Directory.Filter | client/src/pages/Dashboard.tsx:64-68 | the dashboard's `filter`; a definition, whose properties are stated by `Directory.FilterMembers`, `Directory.NearbyOnlyKeepsNearby` and `Directory.EmptyQueryKeepsAll` |
| Directory.FilteredUsers | client/src/pages/Dashboard.tsx:64-79 | `filteredUsers`: the filter followed by the mode's stable sort; a definition, whose properties are stated by `Directory.FilteredUsersPermutation`, `Directory.CompatibilityModeOrder`, `Directory.DistanceModeOrder` and `Directory.RecentModeKeepsOrder` |
| Directory.FilterMembers | client/src/pages/Dashboard.tsx:64-68 | a user is kept exactly when the name contains the query, ignoring case, and passes the nearby test; nothing is added |
| Directory.NearbyOnlyKeepsNearby | client/src/pages/Dashboard.tsx:67 | with nearby-only on, every kept user has a distance other than 0 and below 10 |
| Directory.EmptyQueryKeepsAll | client/src/pages/Dashboard.tsx:66 | an empty search with nearby-only off keeps every user, in order |
| Directory.FilteredUsersPermutation | client/src/pages/Dashboard.tsx:64-79 | the list shown is a permutation of the kept users |
| Directory.CompatibilityModeOrder | client/src/pages/Dashboard.tsx:71-72 | by compatibility, scores do not increase down the list; a missing score counts as 0 |
| Directory.DistanceModeOrder | client/src/pages/Dashboard.tsx:73-74 | by distance, distances do not decrease down the list; a missing or zero distance counts as 999 |
| Directory.RecentModeKeepsOrder | client/src/pages/Dashboard.tsx:75-77 | "recent" keeps the filtered order |
| Directory.CompatibilityColor | client/src/pages/Dashboard.tsx:81-86 | `getCompatibilityColor` always answers one of the four shades; its ordering is stated by `Directory.ColorLadder` |
| Directory.ColorLadder | client/src/pages/Dashboard.tsx:81-86 | the colour is the shade of the score's tier among 70/80/90, and a higher score is never shown lighter |

## Left out

- **Network, Spotify and the Web API.** Every answer Spotify gives is a parameter of the model: audio features, top tracks, the token exchange, the profile and the new playlist's id.
- **Async interleaving.** The model runs the awaited calls in program order.
- **Floating point.** Numbers are exact reals, so rounding error, `NaN` and infinities are not modelled.
- **Square root.** `Math.sqrt` is a parameter. The lemmas that need a true square root require it only at the two norms used.
- **Case folding and white space.** `toLowerCase` and `trim` are modelled on ASCII only: Unicode case mappings and Unicode white space are not.
- **Inherited object properties.** The genre count table and the user tables are plain JavaScript objects, and the model treats them as maps. In the source, a genre spelled `constructor` first reads an inherited function, so its count becomes a string, and a genre spelled `__proto__` never gets an entry of its own. The model counts such names like any other.
- **Key order of the count table.** JavaScript lists integer-like object keys first in ascending order. The model uses insertion order for all keys of the genre count table and of the user table.
- **Read-only requests.** The action log holds the code exchange and the requests that create a playlist, remove tracks and add tracks. The source also sends `getMe` (server.js:121), one `getMyTopTracks` per time range (server.js:170-173, sent even when it returns nothing) and `getPlaylistTracks` (server.js:206). Their answers are parameters of the model, and the requests themselves are not logged.
- **Failing playlist requests.** `createPlaylist`, `getPlaylistTracks`, `removeTracksFromPlaylist` and `addTracksToPlaylist` never fail in the model. In the source, a failure ends `createUltimatePlaylist` early inside its `try`; that path is not modelled.
- **The tracks to remove.** The old tracks of the playlist are a parameter of the model.
- **Sessions.** Express sessions are reduced to the one client's session, and logout is not modelled.
- **Other routes.** `/`, `/api/user` and `/api/user/:id` are not part of this model, nor is the `api/users/[id].js` handler.
- **Logging.** Console logging is left out everywhere.
- **Storage file I/O.** `loadUsers`/`saveUsers` read and write `/tmp/users.json`. The model starts from an empty table, which is the case when no file exists, and keeps the table in memory. Records are maps of string fields; values of other JSON types are not modelled.
- **Parsed usage records.** Stored usage records are either absent, unparsable, or a record with integer `count` and `lastReset`. Records with other shapes, such as a missing field or a non-numeric count, are not modelled.
- **Context, clock and randomness.** `detectAppContext`, `Date.now` and `Math.random` are parameters.
- **Dates.** `createdAt` is the clock reading in milliseconds; `lastUpdated` is the ISO string of the write, passed in.
- **Dashboard rendering.** Only the filter, the sort and the colour function are modelled; the rendered page, its state hooks and the mock data are not.
- UsageLimits.GetUsageStats: states only that `remaining` is not negative, not that it is at most 5. A stored negative count makes `Math.max(0, 5 - count)` exceed 5.

=== FILE: audio_similarity.dfy ===
/**
 * `calculateCosineSimilarity`: the dot product of the two normalised feature vectors
 * divided by the product of their magnitudes, 0 when either magnitude is 0.
 * `Math.sqrt` is a parameter; the lemmas that need its meaning ask for it only at the
 * two squared norms involved.
 */
module AudioSimilarity {
  import opened Features

  /** The dot product, accumulated from the first component to the last. */
  function Dot(u: seq<real>, v: seq<real>): real
    requires |u| == |v|
  {
    if u == [] then 0.0 else Dot(u[..|u| - 1], v[..|v| - 1]) + u[|u| - 1] * v[|v| - 1]
  }

  /** sqrt behaves as the square root at x. */
  predicate IsSqrtAt(sqrt: real -> real, x: real)
  {
    sqrt(x) >= 0.0 && sqrt(x) * sqrt(x) == x
  }

  /** The magnitude `Math.sqrt(v.reduce((sum, val) => sum + val * val, 0))` of a record's vector. */
  function Magnitude(sqrt: real -> real, f: AudioFeatures): real
  {
    sqrt(Dot(ToVector(f), ToVector(f)))
  }

  /** What `calculateCosineSimilarity(f1, f2)` returns. */
  function Cosine(sqrt: real -> real, f1: AudioFeatures, f2: AudioFeatures): real
  {
    var m1, m2 := Magnitude(sqrt, f1), Magnitude(sqrt, f2);
    if m1 == 0.0 || m2 == 0.0 then 0.0 else Dot(ToVector(f1), ToVector(f2)) / (m1 * m2)
  }

  /** `calculateCosineSimilarity`, with its dot-product loop. */
  method CosineSimilarity(sqrt: real -> real, f1: AudioFeatures, f2: AudioFeatures) returns (c: real)
    ensures c == Cosine(sqrt, f1, f2)
  {
    var v1, v2 := ToVector(f1), ToVector(f2);
    var dot := 0.0;
    var i := 0;
    while i < |v1|
      invariant 0 <= i <= |v1|
      invariant dot == Dot(v1[..i], v2[..i])
    {
      assert v1[..i + 1][..i] == v1[..i] && v2[..i + 1][..i] == v2[..i];
      dot := dot + v1[i] * v2[i];
      i := i + 1;
    }
    assert v1[..i] == v1 && v2[..i] == v2;
    var m1, m2 := sqrt(Dot(v1, v1)), sqrt(Dot(v2, v2));
    if m1 == 0.0 || m2 == 0.0 {
      return 0.0;
    }
    c := dot / (m1 * m2);
  }

  lemma {:induction false} DotSymmetric(u: seq<real>, v: seq<real>)
    requires |u| == |v|
    ensures Dot(u, v) == Dot(v, u)
  {
    if u != [] {
      DotSymmetric(u[..|u| - 1], v[..|v| - 1]);
    }
  }

  /** A squared norm is never negative. */
  lemma {:induction false} DotSelfNonNegative(u: seq<real>)
    ensures Dot(u, u) >= 0.0
  {
    if u != [] {
      DotSelfNonNegative(u[..|u| - 1]);
    }
  }

  /** Vectors without negative components have a non-negative dot product. */
  lemma {:induction false} DotNonNegative(u: seq<real>, v: seq<real>)
    requires |u| == |v|
    requires forall i :: 0 <= i < |u| ==> u[i] >= 0.0 && v[i] >= 0.0
    ensures Dot(u, v) >= 0.0
  {
    if u != [] {
      DotNonNegative(u[..|u| - 1], v[..|v| - 1]);
    }
  }

  /** For one component: 2ab·xy <= b²x² + a²y², since (bx - ay)² >= 0. */
  lemma CrossTermStep(a: real, b: real, x: real, y: real)
    ensures 2.0 * a * b * (x * y) <= b * b * (x * x) + a * a * (y * y)
  {
    var d := b * x - a * y;
    assert d * d >= 0.0;
    assert d * d == b * b * (x * x) - 2.0 * a * b * (x * y) + a * a * (y * y);
  }

  /** Summed over the components: 2ab·(u·v) <= b²(u·u) + a²(v·v). */
  lemma {:induction false} CrossTerm(u: seq<real>, v: seq<real>, a: real, b: real)
    requires |u| == |v|
    ensures 2.0 * a * b * Dot(u, v) <= b * b * Dot(u, u) + a * a * Dot(v, v)
  {
    if u != [] {
      var n := |u| - 1;
      var pu, pv := u[..n], v[..n];
      CrossTerm(pu, pv, a, b);
      CrossTermStep(a, b, u[n], v[n]);
      Distribute(2.0 * a * b, Dot(pu, pv), u[n] * v[n]);
      Distribute(b * b, Dot(pu, pu), u[n] * u[n]);
      Distribute(a * a, Dot(pv, pv), v[n] * v[n]);
    }
  }

  lemma Distribute(k: real, x: real, y: real)
    ensures k * (x + y) == k * x + k * y
  {
  }

  /** Multiplying by a positive number keeps a strict order. */
  lemma ScaleStrict(p: real, x: real, y: real)
    requires p > 0.0 && x < y
    ensures p * x < p * y
  {
  }

  /** Cauchy-Schwarz: with m1² = u·u and m2² = v·v, both non-negative, |u·v| <= m1·m2. */
  lemma CauchySchwarz(u: seq<real>, v: seq<real>, m1: real, m2: real)
    requires |u| == |v|
    requires m1 >= 0.0 && m1 * m1 == Dot(u, u)
    requires m2 >= 0.0 && m2 * m2 == Dot(v, v)
    ensures -(m1 * m2) <= Dot(u, v) <= m1 * m2
  {
    var d, p := Dot(u, v), m1 * m2;
    if m1 == 0.0 {
      DotZeroNorm(u, v);
    } else if m2 == 0.0 {
      DotZeroNorm(v, u);
      DotSymmetric(u, v);
    } else {
      CrossTerm(u, v, m1, m2);
      CrossTerm(u, v, -m1, m2);
      BoundFromCrossTerms(d, Dot(u, u), Dot(v, v), m1, m2);
    }
  }

  /** The two cross-term inequalities with a = ±m1, b = m2 give |d| <= m1·m2. */
  lemma BoundFromCrossTerms(d: real, sa: real, sb: real, m1: real, m2: real)
    requires m1 > 0.0 && m2 > 0.0 && m1 * m1 == sa && m2 * m2 == sb
    requires 2.0 * m1 * m2 * d <= m2 * m2 * sa + m1 * m1 * sb
    requires 2.0 * -m1 * m2 * d <= m2 * m2 * sa + m1 * m1 * sb
    ensures -(m1 * m2) <= d <= m1 * m2
  {
    var p := m1 * m2;
    assert p > 0.0 by { ScaleStrict(m1, 0.0, m2); }
    assert m2 * m2 * sa == p * p;
    assert m1 * m1 * sb == p * p;
    assert 2.0 * m1 * m2 * d == 2.0 * (p * d);
    var e := -d;
    assert 2.0 * -m1 * m2 * d == 2.0 * (p * e);
    var rhs := m2 * m2 * sa + m1 * m1 * sb;
    assert rhs == 2.0 * (p * p);
    assert 2.0 * (p * d) <= rhs;
    assert 2.0 * (p * e) <= rhs;
    if d > p {
      ScaleStrict(p, p, d);
    }
    if e > p {
      ScaleStrict(p, p, e);
    }
  }

  /** A vector of squared norm 0 is orthogonal to every vector. */
  lemma {:induction false} DotZeroNorm(u: seq<real>, v: seq<real>)
    requires |u| == |v| && Dot(u, u) == 0.0
    ensures Dot(u, v) == 0.0
  {
    if u != [] {
      var n := |u| - 1;
      DotSelfNonNegative(u[..n]);
      if u[n] != 0.0 {
        SquarePositive(u[n]);
      }
      DotZeroNorm(u[..n], v[..n]);
    }
  }

  lemma SquarePositive(x: real)
    requires x != 0.0
    ensures x * x > 0.0
  {
    if x < 0.0 {
      ScaleStrict(-x, x, 0.0);
    } else {
      ScaleStrict(x, 0.0, x);
    }
  }

  lemma QuotientInRange(d: real, p: real)
    requires p > 0.0 && -p <= d <= p
    ensures -1.0 <= d / p <= 1.0
  {
    assert d / p * p == d;
  }

  /** The order of the two records does not matter. */
  lemma CosineSymmetric(sqrt: real -> real, f1: AudioFeatures, f2: AudioFeatures)
    ensures Cosine(sqrt, f1, f2) == Cosine(sqrt, f2, f1)
  {
    DotSymmetric(ToVector(f1), ToVector(f2));
    var m1, m2 := Magnitude(sqrt, f1), Magnitude(sqrt, f2);
    assert m1 * m2 == m2 * m1;
  }

  /** With a true square root, the similarity lies in [-1, 1]. */
  lemma CosineBounds(sqrt: real -> real, f1: AudioFeatures, f2: AudioFeatures)
    requires IsSqrtAt(sqrt, Dot(ToVector(f1), ToVector(f1)))
    requires IsSqrtAt(sqrt, Dot(ToVector(f2), ToVector(f2)))
    ensures -1.0 <= Cosine(sqrt, f1, f2) <= 1.0
  {
    var u, v := ToVector(f1), ToVector(f2);
    var m1, m2 := Magnitude(sqrt, f1), Magnitude(sqrt, f2);
    if m1 != 0.0 && m2 != 0.0 {
      var d := Dot(u, v);
      assert Cosine(sqrt, f1, f2) == d / (m1 * m2);
      CauchySchwarz(u, v, m1, m2);
      ScaleStrict(m1, 0.0, m2);
      QuotientInRange(d, m1 * m2);
    }
  }

  /** Vectors without negative components are never dissimilar: the similarity is at least 0. */
  lemma CosineNonNegative(sqrt: real -> real, f1: AudioFeatures, f2: AudioFeatures)
    requires IsSqrtAt(sqrt, Dot(ToVector(f1), ToVector(f1)))
    requires IsSqrtAt(sqrt, Dot(ToVector(f2), ToVector(f2)))
    requires forall i :: 0 <= i < 12 ==> ToVector(f1)[i] >= 0.0 && ToVector(f2)[i] >= 0.0
    ensures Cosine(sqrt, f1, f2) >= 0.0
  {
    var m1, m2 := Magnitude(sqrt, f1), Magnitude(sqrt, f2);
    if m1 != 0.0 && m2 != 0.0 {
      DotNonNegative(ToVector(f1), ToVector(f2));
      assert m1 * m2 > 0.0;
    }
  }

  /** A record with a non-zero vector is fully similar to itself. */
  lemma CosineSelf(sqrt: real -> real, f: AudioFeatures)
    requires IsSqrtAt(sqrt, Dot(ToVector(f), ToVector(f)))
    requires Dot(ToVector(f), ToVector(f)) > 0.0
    ensures Cosine(sqrt, f, f) == 1.0
  {
    var m := Magnitude(sqrt, f);
    assert m * m == Dot(ToVector(f), ToVector(f));
    assert m != 0.0;
    assert Dot(ToVector(f), ToVector(f)) / (m * m) == 1.0;
  }

  /** The default record's vector is non-zero, so a profile without features is similar to itself. */
  lemma DefaultVectorNonZero()
    ensures Dot(ToVector(DefaultAudioFeatures()), ToVector(DefaultAudioFeatures())) > 0.0
  {
    var v := ToVector(DefaultAudioFeatures());
    DotSelfNonNegative(v[..11]);
    assert v[11] == 4.0 / 7.0;
  }
}

=== FILE: chunking.dfy ===
/**
 * The batching loop the source writes twice (for audio-feature requests and for adding
 * tracks to a playlist): `for (let i = 0; i < n; i += size) out.push(s.slice(i, i + size))`.
 */
module Chunking {
  import opened Seqs

  function Min(a: int, b: int): int { if a <= b then a else b }

  /** The consecutive slices of s of length size, the last one possibly shorter. */
  function Chunks<T>(s: seq<T>, size: nat): seq<seq<T>>
    requires size > 0
    decreases |s|
  {
    if s == [] then []
    else
      var k := Min(size, |s|);
      [s[..k]] + Chunks(s[k..], size)
  }

  /** Chunking loses and reorders nothing. */
  lemma {:induction false} FlattenChunks<T>(s: seq<T>, size: nat)
    requires size > 0
    ensures Flatten(Chunks(s, size)) == s
    decreases |s|
  {
    if s != [] {
      var k := Min(size, |s|);
      FlattenChunks(s[k..], size);
      assert s[..k] + s[k..] == s;
    }
  }

  /** Every chunk holds between 1 and size elements. */
  lemma {:induction false} ChunkSizes<T>(s: seq<T>, size: nat)
    requires size > 0
    ensures forall c :: c in Chunks(s, size) ==> 0 < |c| <= size
    decreases |s|
  {
    if s != [] {
      ChunkSizes(s[Min(size, |s|)..], size);
    }
  }

  /** There are ceil(|s| / size) chunks: the fewest chunks of that size that can hold s. */
  lemma {:induction false} ChunkCount<T>(s: seq<T>, size: nat)
    requires size > 0
    ensures |s| <= |Chunks(s, size)| * size < |s| + size
    decreases |s|
  {
    if s != [] {
      var rest := s[Min(size, |s|)..];
      ChunkCount(rest, size);
      var c := |Chunks(rest, size)|;
      assert |Chunks(s, size)| == c + 1;
      assert (c + 1) * size == c * size + size;
    }
  }

  /** The loop itself: it builds exactly the chunks of s. */
  method SplitIntoChunks<T>(s: seq<T>, size: nat) returns (chunks: seq<seq<T>>)
    requires size > 0
    ensures chunks == Chunks(s, size)
  {
    chunks := [];
    var i := 0;
    while i < |s|
      invariant chunks + Chunks(s[Min(i, |s|)..], size) == Chunks(s, size)
    {
      var rest := s[i..];
      var k := Min(size, |rest|);
      assert rest[..k] == s[i..Min(i + size, |s|)];
      assert rest[k..] == s[Min(i + size, |s|)..];
      chunks := chunks + [s[i..Min(i + size, |s|)]];
      i := i + size;
    }
  }
}

=== FILE: common.dfy ===
/** Small building blocks shared by every part of the model. */
module Common {

  /** A JavaScript value that may be `null` or `undefined`. */
  datatype Option<T> = None | Some(value: T)

  /** JavaScript's `Math.round` on an exact real: the nearest integer, a half rounding up. */
  function Round(x: real): (r: int)
    ensures r as real - 0.5 <= x < r as real + 0.5
  {
    (x + 0.5).Floor
  }

  lemma RoundMonotone(x: real, y: real)
    requires x <= y
    ensures Round(x) <= Round(y)
  {
  }

  lemma RoundOfInteger(n: int)
    ensures Round(n as real) == n
  {
  }

  /** A real in [lo, hi] with integer bounds rounds into [lo, hi]. */
  lemma RoundWithin(x: real, lo: int, hi: int)
    requires lo as real <= x <= hi as real
    ensures lo <= Round(x) <= hi
  {
    RoundMonotone(lo as real, x);
    RoundMonotone(x, hi as real);
    RoundOfInteger(lo);
    RoundOfInteger(hi);
  }
}

=== FILE: compatibility.dfy ===
/**
 * `calculateCompatibilityScore` and `findCompatibleUsers`: the weighted blend of audio,
 * genre and common-track similarity, rounded to a whole percentage, and the list of
 * other users scoring at least 70, best first.
 */
module Compatibility {
  import opened Common
  import opened Seqs
  import opened StableSort
  import opened Features
  import opened AudioSimilarity
  import opened Genres
  import opened VibeProfiles

  function Uris(ts: seq<TrackWithFeatures>): (r: seq<string>)
    ensures |r| == |ts|
  {
    seq(|ts|, i requires 0 <= i < |ts| => ts[i].uri)
  }

  function Max(a: int, b: int): int
  {
    if a < b then b else a
  }

  /**
   * `calculateTrackSimilarity`: the number of distinct URIs the two track lists share,
   * divided by the length of the longer list (duplicates included); 0 for two empty lists.
   */
  function TrackSimilarity(t1: seq<TrackWithFeatures>, t2: seq<TrackWithFeatures>): real
  {
    var common := |Elements(Uris(t1)) * Elements(Uris(t2))|;
    var total := Max(|t1|, |t2|);
    if total > 0 then common as real / total as real else 0.0
  }

  /** Track similarity lies in [0, 1]. */
  lemma TrackSimilarityBounds(t1: seq<TrackWithFeatures>, t2: seq<TrackWithFeatures>)
    ensures 0.0 <= TrackSimilarity(t1, t2) <= 1.0
  {
    var u1, u2 := Elements(Uris(t1)), Elements(Uris(t2));
    ElementsCount(Uris(t1));
    assert u1 * u2 <= u1;
    CardinalityOfSubset(u1 * u2, u1);
    var total := Max(|t1|, |t2|);
    if total > 0 {
      RatioInUnitRange(|u1 * u2|, total);
    }
  }

  lemma TrackSimilaritySymmetric(t1: seq<TrackWithFeatures>, t2: seq<TrackWithFeatures>)
    ensures TrackSimilarity(t1, t2) == TrackSimilarity(t2, t1)
  {
    var u1, u2 := Elements(Uris(t1)), Elements(Uris(t2));
    assert u1 * u2 == u2 * u1;
  }

  /** A non-empty track list is fully similar to itself exactly when no URI occurs twice in it. */
  lemma TrackSimilaritySelf(t: seq<TrackWithFeatures>)
    requires t != []
    ensures TrackSimilarity(t, t) == 1.0 <==> NoDuplicates(Uris(t))
  {
    var u := Uris(t);
    assert Elements(u) * Elements(u) == Elements(u);
    assert TrackSimilarity(t, t) == |Elements(u)| as real / |t| as real;
    ElementsCount(u);
    if !NoDuplicates(u) {
      var i, j :| 0 <= i < j < |u| && u[i] == u[j];
      ElementsCountRepeated(u, i, j);
    }
    RatioIsOne(|Elements(u)|, |t|);
  }

  lemma RatioIsOne(a: nat, b: nat)
    requires b > 0
    ensures a as real / b as real == 1.0 <==> a == b
  {
    assert a as real / b as real * b as real == a as real;
  }

  /** `calculateCompatibilityScore`: Math.round((0.7·audio + 0.2·genre + 0.1·tracks) · 100). */
  function CompatibilityScore(sqrt: real -> real, p1: VibeProfile, p2: VibeProfile): int
  {
    var audio := Cosine(sqrt, p1.averageFeatures, p2.averageFeatures);
    var genre := GenreSimilarity(p1.topGenres, p2.topGenres);
    var tracks := TrackSimilarity(p1.tracks, p2.tracks);
    Round((audio * 0.7 + genre * 0.2 + tracks * 0.1) * 100.0)
  }

  /** The squared norm of a profile's vibe vector. */
  function SquaredNorm(p: VibeProfile): real
  {
    Dot(ToVector(p.averageFeatures), ToVector(p.averageFeatures))
  }

  /** The score does not depend on which profile is asked about which. */
  lemma CompatibilitySymmetric(sqrt: real -> real, p1: VibeProfile, p2: VibeProfile)
    ensures CompatibilityScore(sqrt, p1, p2) == CompatibilityScore(sqrt, p2, p1)
  {
    CosineSymmetric(sqrt, p1.averageFeatures, p2.averageFeatures);
    GenreSimilaritySymmetric(p1.topGenres, p2.topGenres);
    TrackSimilaritySymmetric(p1.tracks, p2.tracks);
  }

  /**
   * With a true square root the score lies in [-70, 100]: the audio term may be negative,
   * since a vibe vector can have negative components.
   */
  lemma CompatibilityBounds(sqrt: real -> real, p1: VibeProfile, p2: VibeProfile)
    requires IsSqrtAt(sqrt, SquaredNorm(p1)) && IsSqrtAt(sqrt, SquaredNorm(p2))
    ensures -70 <= CompatibilityScore(sqrt, p1, p2) <= 100
  {
    CosineBounds(sqrt, p1.averageFeatures, p2.averageFeatures);
    GenreSimilarityBounds(p1.topGenres, p2.topGenres);
    TrackSimilarityBounds(p1.tracks, p2.tracks);
    var audio := Cosine(sqrt, p1.averageFeatures, p2.averageFeatures);
    var genre := GenreSimilarity(p1.topGenres, p2.topGenres);
    var tracks := TrackSimilarity(p1.tracks, p2.tracks);
    RoundWithin((audio * 0.7 + genre * 0.2 + tracks * 0.1) * 100.0, -70, 100);
  }

  /** When neither vibe vector has a negative component, the score lies in [0, 100]. */
  lemma CompatibilityNonNegative(sqrt: real -> real, p1: VibeProfile, p2: VibeProfile)
    requires IsSqrtAt(sqrt, SquaredNorm(p1)) && IsSqrtAt(sqrt, SquaredNorm(p2))
    requires forall i :: 0 <= i < 12 ==> ToVector(p1.averageFeatures)[i] >= 0.0 && ToVector(p2.averageFeatures)[i] >= 0.0
    ensures 0 <= CompatibilityScore(sqrt, p1, p2) <= 100
  {
    CosineBounds(sqrt, p1.averageFeatures, p2.averageFeatures);
    CosineNonNegative(sqrt, p1.averageFeatures, p2.averageFeatures);
    GenreSimilarityBounds(p1.topGenres, p2.topGenres);
    TrackSimilarityBounds(p1.tracks, p2.tracks);
    var audio := Cosine(sqrt, p1.averageFeatures, p2.averageFeatures);
    var genre := GenreSimilarity(p1.topGenres, p2.topGenres);
    var tracks := TrackSimilarity(p1.tracks, p2.tracks);
    RoundWithin((audio * 0.7 + genre * 0.2 + tracks * 0.1) * 100.0, 0, 100);
  }

  /** A profile with a non-zero vibe vector and tracks of distinct URIs scores 100 against itself. */
  lemma CompatibilitySelf(sqrt: real -> real, p: VibeProfile)
    requires IsSqrtAt(sqrt, SquaredNorm(p)) && SquaredNorm(p) > 0.0
    requires p.tracks != [] && NoDuplicates(Uris(p.tracks))
    ensures CompatibilityScore(sqrt, p, p) == 100
  {
    CosineSelf(sqrt, p.averageFeatures);
    GenreSimilaritySelf(p.topGenres);
    TrackSimilaritySelf(p.tracks);
    RoundOfInteger(100);
  }

  /** Two profiles with the same vibe vector and genres but no tracks score only 90: the track term is 0. */
  lemma CompatibilityWithoutTracks(sqrt: real -> real, p1: VibeProfile, p2: VibeProfile)
    requires p1.averageFeatures == p2.averageFeatures && p1.topGenres == p2.topGenres
    requires IsSqrtAt(sqrt, SquaredNorm(p1)) && SquaredNorm(p1) > 0.0
    requires p1.tracks == [] && p2.tracks == []
    ensures CompatibilityScore(sqrt, p1, p2) == 90
  {
    CosineSelf(sqrt, p1.averageFeatures);
    GenreSimilaritySelf(p1.topGenres);
    RoundOfInteger(90);
  }

  /** The lowest score `findCompatibleUsers` reports. */
  const MinScore: int := 70

  /** One `{ user, compatibilityScore }` result. */
  datatype Match = Match(user: VibeProfile, compatibilityScore: int)

  /** The two filters and the map: the other users' profiles that score at least 70, in input order. */
  function Qualifying(sqrt: real -> real, me: VibeProfile, all: seq<VibeProfile>): seq<Match>
  {
    if all == [] then []
    else
      var p := all[0];
      var score := CompatibilityScore(sqrt, me, p);
      (if p.userId != me.userId && score >= MinScore then [Match(p, score)] else [])
        + Qualifying(sqrt, me, all[1..])
  }

  /** The comparator `(a, b) => b.compatibilityScore - a.compatibilityScore` as an ascending key. */
  function ByScoreDescending(m: Match): real
  {
    -(m.compatibilityScore as real)
  }

  /** What `findCompatibleUsers(me, all)` returns. */
  function FindCompatibleUsers(sqrt: real -> real, me: VibeProfile, all: seq<VibeProfile>): seq<Match>
  {
    SortBy(Qualifying(sqrt, me, all), ByScoreDescending)
  }

  /** A result is a profile of another user, with its true score, of at least 70, and every such profile is a result. */
  lemma {:induction false} QualifyingMembers(sqrt: real -> real, me: VibeProfile, all: seq<VibeProfile>, m: Match)
    ensures m in Qualifying(sqrt, me, all) <==>
      && m.user in all
      && m.user.userId != me.userId
      && m.compatibilityScore == CompatibilityScore(sqrt, me, m.user)
      && m.compatibilityScore >= MinScore
  {
    if all != [] {
      QualifyingMembers(sqrt, me, all[1..], m);
      assert all == [all[0]] + all[1..];
    }
  }

  /**
   * `findCompatibleUsers`: exactly the other users' profiles scoring at least 70, each with
   * its score, listed by non-increasing score; equal scores keep the input order.
   */
  lemma FindCompatibleUsersSpec(sqrt: real -> real, me: VibeProfile, all: seq<VibeProfile>, k: real)
    ensures var r := FindCompatibleUsers(sqrt, me, all);
      && multiset(r) == multiset(Qualifying(sqrt, me, all))
      && (forall i, j :: 0 <= i < j < |r| ==> r[i].compatibilityScore >= r[j].compatibilityScore)
      && WithKey(r, ByScoreDescending, k) == WithKey(Qualifying(sqrt, me, all), ByScoreDescending, k)
  {
    var q := Qualifying(sqrt, me, all);
    var r := FindCompatibleUsers(sqrt, me, all);
    SortByOrdered(q, ByScoreDescending);
    SortByStable(q, ByScoreDescending, k);
    forall i, j | 0 <= i < j < |r|
      ensures r[i].compatibilityScore >= r[j].compatibilityScore
    {
      assert ByScoreDescending(r[i]) <= ByScoreDescending(r[j]);
    }
  }

  /** The caller never appears among the results, and every result scores at least 70. */
  lemma FindCompatibleUsersExcludesSelf(sqrt: real -> real, me: VibeProfile, all: seq<VibeProfile>)
    ensures forall m :: m in FindCompatibleUsers(sqrt, me, all) ==>
      m.user.userId != me.userId && m.compatibilityScore >= MinScore && m.user in all
  {
    var q := Qualifying(sqrt, me, all);
    SortByOrdered(q, ByScoreDescending);
    forall m | m in FindCompatibleUsers(sqrt, me, all)
      ensures m.user.userId != me.userId && m.compatibilityScore >= MinScore && m.user in all
    {
      assert m in multiset(q);
      QualifyingMembers(sqrt, me, all, m);
    }
  }
}

=== FILE: directory.dfy ===
/**
 * The directory rule of the dashboard: users whose name contains the search text
 * (ignoring case), optionally only those nearby, sorted by one of three modes; and the
 * colour a compatibility score is shown in.
 */
module Directory {
  import opened Common
  import opened Text
  import opened Seqs
  import opened StableSort

  /** A directory entry; the score and the distance may be absent. */
  datatype DirectoryUser = DirectoryUser(
    id: string, displayName: string, compatibilityScore: Option<real>, distance: Option<real>)

  datatype SortMode = ByCompatibility | ByDistance | Recent

  /** The distance below which a user counts as nearby. */
  const NearbyLimit: real := 10.0

  /** `user.distance && user.distance < 10`: present, not 0, and under 10. */
  predicate IsNearby(u: DirectoryUser)
  {
    u.distance.Some? && u.distance.value != 0.0 && u.distance.value < NearbyLimit
  }

  /** The filter's test. */
  predicate Matches(u: DirectoryUser, query: string, nearbyOnly: bool)
  {
    Contains(Lower(u.displayName), Lower(query)) && (!nearbyOnly || IsNearby(u))
  }

  /** `users.filter(...)`: a fresh array of the matching users, in their order. */
  function Filter(users: seq<DirectoryUser>, query: string, nearbyOnly: bool): seq<DirectoryUser>
  {
    if users == [] then []
    else (if Matches(users[0], query, nearbyOnly) then [users[0]] else []) + Filter(users[1..], query, nearbyOnly)
  }

  /** `compatibilityScore || 0` */
  function ScoreOrZero(u: DirectoryUser): real
  {
    match u.compatibilityScore case None => 0.0 case Some(s) => s
  }

  /** `distance || 999`: an absent distance, and a distance of 0, sort as 999. */
  function DistanceOr999(u: DirectoryUser): real
  {
    match u.distance case None => 999.0 case Some(d) => if d == 0.0 then 999.0 else d
  }

  /** The comparator of each mode as an ascending sort key. */
  function SortKey(mode: SortMode): DirectoryUser -> real
  {
    match mode
    case ByCompatibility => u => -ScoreOrZero(u)
    case ByDistance => u => DistanceOr999(u)
    case Recent => u => 0.0
  }

  /** `filteredUsers` */
  function FilteredUsers(users: seq<DirectoryUser>, query: string, nearbyOnly: bool, mode: SortMode): seq<DirectoryUser>
  {
    SortBy(Filter(users, query, nearbyOnly), SortKey(mode))
  }

  /** The filter keeps exactly the matching users and adds none. */
  lemma {:induction false} FilterMembers(users: seq<DirectoryUser>, query: string, nearbyOnly: bool)
    ensures forall u :: u in Filter(users, query, nearbyOnly) <==> u in users && Matches(u, query, nearbyOnly)
    ensures multiset(Filter(users, query, nearbyOnly)) <= multiset(users)
  {
    if users != [] {
      FilterMembers(users[1..], query, nearbyOnly);
      assert users == [users[0]] + users[1..];
    }
  }

  /** With nearby-only on, every kept user has a distance, other than 0, below 10. */
  lemma NearbyOnlyKeepsNearby(users: seq<DirectoryUser>, query: string)
    ensures forall u :: u in Filter(users, query, true) ==>
      u.distance.Some? && u.distance.value != 0.0 && u.distance.value < NearbyLimit
  {
    FilterMembers(users, query, true);
  }

  /** An empty search with nearby-only off keeps every user, in order. */
  lemma {:induction false} EmptyQueryKeepsAll(users: seq<DirectoryUser>)
    ensures Filter(users, "", false) == users
  {
    if users != [] {
      ContainsEmpty(Lower(users[0].displayName));
      assert Lower("") == "";
      EmptyQueryKeepsAll(users[1..]);
    }
  }

  /** The shown list is a permutation of the filtered users, so a user is shown exactly when it matches. */
  lemma FilteredUsersPermutation(users: seq<DirectoryUser>, query: string, nearbyOnly: bool, mode: SortMode)
    ensures multiset(FilteredUsers(users, query, nearbyOnly, mode)) == multiset(Filter(users, query, nearbyOnly))
    ensures forall u :: u in FilteredUsers(users, query, nearbyOnly, mode) <==> u in users && Matches(u, query, nearbyOnly)
  {
    var f := Filter(users, query, nearbyOnly);
    SortByOrdered(f, SortKey(mode));
    FilterMembers(users, query, nearbyOnly);
    forall u
      ensures u in FilteredUsers(users, query, nearbyOnly, mode) <==> u in f
    {
      assert u in multiset(FilteredUsers(users, query, nearbyOnly, mode)) <==> u in multiset(f);
    }
  }

  /** In compatibility mode the scores, an absent score as 0, do not increase down the list. */
  lemma CompatibilityModeOrder(users: seq<DirectoryUser>, query: string, nearbyOnly: bool)
    ensures var r := FilteredUsers(users, query, nearbyOnly, ByCompatibility);
      forall i, j :: 0 <= i < j < |r| ==> ScoreOrZero(r[i]) >= ScoreOrZero(r[j])
  {
    var r := FilteredUsers(users, query, nearbyOnly, ByCompatibility);
    SortByOrdered(Filter(users, query, nearbyOnly), SortKey(ByCompatibility));
    forall i, j | 0 <= i < j < |r|
      ensures ScoreOrZero(r[i]) >= ScoreOrZero(r[j])
    {
      assert SortKey(ByCompatibility)(r[i]) <= SortKey(ByCompatibility)(r[j]);
    }
  }

  /** In distance mode the distances, an absent or zero one as 999, do not decrease down the list. */
  lemma DistanceModeOrder(users: seq<DirectoryUser>, query: string, nearbyOnly: bool)
    ensures var r := FilteredUsers(users, query, nearbyOnly, ByDistance);
      forall i, j :: 0 <= i < j < |r| ==> DistanceOr999(r[i]) <= DistanceOr999(r[j])
  {
    var r := FilteredUsers(users, query, nearbyOnly, ByDistance);
    SortByOrdered(Filter(users, query, nearbyOnly), SortKey(ByDistance));
    forall i, j | 0 <= i < j < |r|
      ensures DistanceOr999(r[i]) <= DistanceOr999(r[j])
    {
      assert SortKey(ByDistance)(r[i]) <= SortKey(ByDistance)(r[j]);
    }
  }

  /** In recent mode the comparator is always 0, and the stable sort keeps the filtered order. */
  lemma RecentModeKeepsOrder(users: seq<DirectoryUser>, query: string, nearbyOnly: bool)
    ensures FilteredUsers(users, query, nearbyOnly, Recent) == Filter(users, query, nearbyOnly)
  {
    SortByConstantKey(Filter(users, query, nearbyOnly), SortKey(Recent), 0.0);
  }

  /** The four colours, lightest first. */
  const Shades: seq<string> := ["bg-gray-400 text-white", "bg-gray-600 text-white", "bg-gray-800 text-white", "bg-black text-white"]

  /** `getCompatibilityColor(score)` */
  function CompatibilityColor(score: real): (c: string)
    ensures c in Shades
  {
    if score >= 90.0 then "bg-black text-white"
    else if score >= 80.0 then "bg-gray-800 text-white"
    else if score >= 70.0 then "bg-gray-600 text-white"
    else "bg-gray-400 text-white"
  }

  /** The shade of a score, 0 for the lightest: the number of thresholds 70, 80, 90 it reaches. */
  function Tier(score: real): (t: nat)
    ensures t < |Shades|
  {
    (if score >= 70.0 then 1 else 0) + (if score >= 80.0 then 1 else 0) + (if score >= 90.0 then 1 else 0)
  }

  /** The ladder picks the shade of the score's tier, so a higher score is never shown lighter. */
  lemma ColorLadder(s1: real, s2: real)
    ensures CompatibilityColor(s1) == Shades[Tier(s1)]
    ensures s1 <= s2 ==> Tier(s1) <= Tier(s2)
  {
  }
}

=== FILE: feature_fetch.dfy ===
/**
 * `getAudioFeatures`: the track ids are split into requests of at most 100 ids, the
 * answers are concatenated with their null entries dropped, and any exception turns the
 * whole result into the empty list. The request itself is an oracle.
 */
module FeatureFetch {
  import opened Common
  import opened Seqs
  import opened Chunking
  import opened Features

  /** The most ids one audio-features request may carry. */
  const BatchSize: nat := 100

  /** What one request for a batch of ids comes back with. */
  datatype FetchResponse =
    | Thrown                                           // the request threw
    | NoFeatures                                       // the body has no `audio_features` array
    | Features(items: seq<Option<AudioFeatures>>)      // one entry per id, null for unknown ids

  /** `items.filter(Boolean)`: the entries that are not null, in order. */
  function Present(items: seq<Option<AudioFeatures>>): (r: seq<AudioFeatures>)
    ensures |r| <= |items|
  {
    if items == [] then []
    else Present(items[..|items| - 1]) + (if items[|items| - 1].Some? then [items[|items| - 1].value] else [])
  }

  /** Filtering a concatenation filters each part. */
  lemma {:induction false} PresentAppend(a: seq<Option<AudioFeatures>>, b: seq<Option<AudioFeatures>>)
    ensures Present(a + b) == Present(a) + Present(b)
    decreases |b|
  {
    if b == [] {
      assert a + b == a;
    } else {
      var b' := b[..|b| - 1];
      assert (a + b)[..|a + b| - 1] == a + b';
      assert (a + b)[|a + b| - 1] == b[|b| - 1];
      PresentAppend(a, b');
      Associative(Present(a), Present(b'), if b[|b| - 1].Some? then [b[|b| - 1].value] else []);
    }
  }

  /** A record is kept exactly when it is a non-null entry. */
  lemma {:induction false} PresentMembers(items: seq<Option<AudioFeatures>>)
    ensures forall f :: f in Present(items) <==> Some(f) in items
  {
    if items != [] {
      var p := items[..|items| - 1];
      PresentMembers(p);
      assert items == p + [items[|items| - 1]];
    }
  }

  /** A null entry contributes nothing and a record contributes itself; with `PresentAppend` this fixes `Present` on every input. */
  lemma PresentSingles(f: AudioFeatures)
    ensures Present([None]) == [] && Present([Some(f)]) == [f]
  {
  }

  /** The features gathered over the batches, or None when a request threw. */
  function Gathered(batches: seq<seq<string>>, fetch: seq<string> -> FetchResponse): Option<seq<AudioFeatures>>
  {
    if batches == [] then Some([])
    else
      match Gathered(batches[..|batches| - 1], fetch)
      case None => None
      case Some(acc) =>
        match fetch(batches[|batches| - 1])
        case Thrown => None
        case NoFeatures => Some(acc)
        case Features(items) => Some(acc + Present(items))
  }

  /** What `getAudioFeatures(ids)` resolves to. */
  function FetchedFeatures(ids: seq<string>, fetch: seq<string> -> FetchResponse): seq<AudioFeatures>
  {
    match Gathered(Chunks(ids, BatchSize), fetch)
    case None => []
    case Some(fs) => fs
  }

  /** The two loops of `getAudioFeatures`. */
  method GetAudioFeatures(ids: seq<string>, fetch: seq<string> -> FetchResponse) returns (all: seq<AudioFeatures>)
    ensures all == FetchedFeatures(ids, fetch)
  {
    var batches := SplitIntoChunks(ids, BatchSize);
    all := [];
    var i := 0;
    while i < |batches|
      invariant 0 <= i <= |batches|
      invariant Gathered(batches[..i], fetch) == Some(all)
    {
      assert batches[..i + 1][..i] == batches[..i];
      var response := fetch(batches[i]);
      match response {
        case Thrown =>
          GatheredStaysNone(batches, i + 1, fetch);
          return [];
        case NoFeatures =>
        case Features(items) =>
          all := all + Present(items);
      }
      i := i + 1;
    }
    assert batches[..i] == batches;
  }

  /** Once a request has thrown, no later batch brings the result back. */
  lemma {:induction false} GatheredStaysNone(batches: seq<seq<string>>, k: nat, fetch: seq<string> -> FetchResponse)
    requires k <= |batches| && Gathered(batches[..k], fetch) == None
    ensures Gathered(batches, fetch) == None
    decreases |batches| - k
  {
    if k < |batches| {
      assert batches[..k + 1][..k] == batches[..k];
      GatheredStaysNone(batches, k + 1, fetch);
    } else {
      assert batches[..k] == batches;
    }
  }

  /** Each request is sent a batch of 1 to 100 ids, and the batches are the ids in order. */
  lemma RequestsAreBatched(ids: seq<string>)
    ensures Flatten(Chunks(ids, BatchSize)) == ids
    ensures forall b :: b in Chunks(ids, BatchSize) ==> 0 < |b| <= BatchSize
    ensures |ids| <= |Chunks(ids, BatchSize)| * BatchSize < |ids| + BatchSize
  {
    FlattenChunks(ids, BatchSize);
    ChunkSizes(ids, BatchSize);
    ChunkCount(ids, BatchSize);
  }

  /** A request that throws empties the whole result, whatever the other batches returned. */
  lemma {:induction false} ThrowEmptiesResult(ids: seq<string>, fetch: seq<string> -> FetchResponse, k: nat)
    requires k < |Chunks(ids, BatchSize)| && fetch(Chunks(ids, BatchSize)[k]).Thrown?
    ensures FetchedFeatures(ids, fetch) == []
  {
    var batches := Chunks(ids, BatchSize);
    var g := Gathered(batches[..k], fetch);
    assert batches[..k + 1][..k] == batches[..k];
    assert batches[..k + 1][k] == batches[k];
    assert Gathered(batches[..k + 1], fetch) == None by {
      if g.Some? { assert Gathered(batches[..k + 1], fetch) == None; }
    }
    GatheredStaysNone(batches, k + 1, fetch);
  }

  /** Null entries are dropped, so when no request answers with more entries than ids, no more features than ids come back. */
  lemma {:induction false} GatheredAtMostRequested(batches: seq<seq<string>>, fetch: seq<string> -> FetchResponse)
    requires forall b :: b in batches && fetch(b).Features? ==> |fetch(b).items| <= |b|
    ensures Gathered(batches, fetch).Some? ==> |Gathered(batches, fetch).value| <= |Flatten(batches)|
  {
    if batches != [] {
      var p := batches[..|batches| - 1];
      var b := batches[|batches| - 1];
      GatheredAtMostRequested(p, fetch);
      FlattenSnoc(p, b);
      assert batches == p + [b];
    }
  }

  /** The result of `getAudioFeatures` is never longer than the id list, if every answer is. */
  lemma FeaturesAtMostIds(ids: seq<string>, fetch: seq<string> -> FetchResponse)
    requires forall b :: fetch(b).Features? ==> |fetch(b).items| <= |b|
    ensures |FetchedFeatures(ids, fetch)| <= |ids|
  {
    GatheredAtMostRequested(Chunks(ids, BatchSize), fetch);
    FlattenChunks(ids, BatchSize);
  }

  /** The features of each id, in order. */
  function FeaturesOf(ids: seq<string>, lookup: string -> AudioFeatures): (r: seq<AudioFeatures>)
    ensures |r| == |ids| && forall i :: 0 <= i < |ids| ==> r[i] == lookup(ids[i])
  {
    seq(|ids|, i requires 0 <= i < |ids| => lookup(ids[i]))
  }

  /** A service that knows every id: one non-null entry per id, in request order. */
  function Complete(lookup: string -> AudioFeatures): seq<string> -> FetchResponse
  {
    batch => Features(seq(|batch|, i requires 0 <= i < |batch| => Some(lookup(batch[i]))))
  }

  lemma {:induction false} PresentAllSome(b: seq<string>, lookup: string -> AudioFeatures)
    ensures Present(seq(|b|, i requires 0 <= i < |b| => Some(lookup(b[i])))) == FeaturesOf(b, lookup)
  {
    if b != [] {
      var p := b[..|b| - 1];
      PresentAllSome(p, lookup);
      var items := seq(|b|, i requires 0 <= i < |b| => Some(lookup(b[i])));
      assert items[..|items| - 1] == seq(|p|, i requires 0 <= i < |p| => Some(lookup(p[i])));
      assert FeaturesOf(b, lookup) == FeaturesOf(p, lookup) + [lookup(b[|b| - 1])];
    }
  }

  lemma {:induction false} GatheredComplete(batches: seq<seq<string>>, lookup: string -> AudioFeatures)
    ensures Gathered(batches, Complete(lookup)) == Some(FeaturesOf(Flatten(batches), lookup))
  {
    if batches != [] {
      var fetch := Complete(lookup);
      var p, b := batches[..|batches| - 1], batches[|batches| - 1];
      var items := seq(|b|, i requires 0 <= i < |b| => Some(lookup(b[i])));
      assert batches == p + [b];
      GatheredComplete(p, lookup);
      assert fetch(b) == Features(items);
      PresentAllSome(b, lookup);
      assert Gathered(batches, fetch) == Some(FeaturesOf(Flatten(p), lookup) + FeaturesOf(b, lookup));
      FlattenSnoc(p, b);
      FeaturesOfAppend(Flatten(p), b, lookup);
    }
  }

  lemma FeaturesOfAppend(a: seq<string>, b: seq<string>, lookup: string -> AudioFeatures)
    ensures FeaturesOf(a + b, lookup) == FeaturesOf(a, lookup) + FeaturesOf(b, lookup)
  {
  }

  /** When the service knows every id, `getAudioFeatures` returns one record per id, in order. */
  lemma FetchedComplete(ids: seq<string>, lookup: string -> AudioFeatures)
    ensures FetchedFeatures(ids, Complete(lookup)) == FeaturesOf(ids, lookup)
  {
    GatheredComplete(Chunks(ids, BatchSize), lookup);
    FlattenChunks(ids, BatchSize);
  }
}

=== FILE: features.dfy ===
/**
 * The audio-feature record of a track, its neutral default, the field-wise average
 * that becomes a user's "vibe vector", and the 12-component normalised vector that
 * cosine similarity is taken over.
 */
module Features {
  import opened Common

  /** Spotify's audio features; every JavaScript `number` is an exact real here. */
  datatype AudioFeatures = AudioFeatures(
    acousticness: real,
    danceability: real,
    energy: real,
    instrumentalness: real,
    liveness: real,
    loudness: real,
    speechiness: real,
    tempo: real,
    valence: real,
    key: real,
    mode: real,
    timeSignature: real)

  /** The neutral record substituted when a track has no features. */
  function DefaultAudioFeatures(): AudioFeatures
  {
    AudioFeatures(0.5, 0.5, 0.5, 0.5, 0.5, -10.0, 0.5, 120.0, 0.5, 5.0, 1.0, 4.0)
  }

  /** The twelve fields, so that one statement can speak of each of them. */
  datatype Field =
    | Acousticness | Danceability | Energy | Instrumentalness | Liveness | Loudness
    | Speechiness | Tempo | Valence | Key | Mode | TimeSignature

  function Get(f: AudioFeatures, field: Field): real
  {
    match field
    case Acousticness => f.acousticness
    case Danceability => f.danceability
    case Energy => f.energy
    case Instrumentalness => f.instrumentalness
    case Liveness => f.liveness
    case Loudness => f.loudness
    case Speechiness => f.speechiness
    case Tempo => f.tempo
    case Valence => f.valence
    case Key => f.key
    case Mode => f.mode
    case TimeSignature => f.timeSignature
  }

  /** The fields whose average is passed through `Math.round`. */
  predicate IsRounded(field: Field)
  {
    field == Key || field == Mode || field == TimeSignature
  }

  /** One step of the `reduce`: the field-wise sum of two records. */
  function Add(a: AudioFeatures, b: AudioFeatures): (r: AudioFeatures)
    ensures forall field :: Get(r, field) == Get(a, field) + Get(b, field)
  {
    AudioFeatures(
      a.acousticness + b.acousticness, a.danceability + b.danceability, a.energy + b.energy,
      a.instrumentalness + b.instrumentalness, a.liveness + b.liveness, a.loudness + b.loudness,
      a.speechiness + b.speechiness, a.tempo + b.tempo, a.valence + b.valence,
      a.key + b.key, a.mode + b.mode, a.timeSignature + b.timeSignature)
  }

  /** `fs.reduce(Add, acc)`: a left fold from the seed acc. */
  function Reduce(acc: AudioFeatures, fs: seq<AudioFeatures>): AudioFeatures
    decreases |fs|
  {
    if fs == [] then acc else Reduce(Add(acc, fs[0]), fs[1..])
  }

  /** The plain sum of one field over fs. */
  function Sum(fs: seq<AudioFeatures>, field: Field): real
  {
    if fs == [] then 0.0 else Get(fs[0], field) + Sum(fs[1..], field)
  }

  /** The fold adds the seed to the sum of the field over fs. */
  lemma {:induction false} ReduceIsSeedPlusSum(acc: AudioFeatures, fs: seq<AudioFeatures>, field: Field)
    ensures Get(Reduce(acc, fs), field) == Get(acc, field) + Sum(fs, field)
    decreases |fs|
  {
    if fs != [] {
      ReduceIsSeedPlusSum(Add(acc, fs[0]), fs[1..], field);
    }
  }

  /**
   * `calculateAverageFeatures`: the default record for no input; otherwise the fold
   * seeded with the DEFAULT record (not with zeros), each field divided by the count,
   * and key, mode and time signature rounded.
   */
  function AverageFeatures(fs: seq<AudioFeatures>): AudioFeatures
  {
    if fs == [] then DefaultAudioFeatures()
    else
      var sums := Reduce(DefaultAudioFeatures(), fs);
      var n := |fs| as real;
      AudioFeatures(
        sums.acousticness / n, sums.danceability / n, sums.energy / n,
        sums.instrumentalness / n, sums.liveness / n, sums.loudness / n,
        sums.speechiness / n, sums.tempo / n, sums.valence / n,
        Round(sums.key / n) as real, Round(sums.mode / n) as real, Round(sums.timeSignature / n) as real)
  }

  /**
   * Each field of the average is (default value + sum of the field) / count, rounded for
   * key, mode and time signature; with no input the average is the default record.
   */
  lemma AverageIncludesDefault(fs: seq<AudioFeatures>, field: Field)
    ensures fs == [] ==> AverageFeatures(fs) == DefaultAudioFeatures()
    ensures fs != [] ==>
      var mean := (Get(DefaultAudioFeatures(), field) + Sum(fs, field)) / |fs| as real;
      Get(AverageFeatures(fs), field) == if IsRounded(field) then Round(mean) as real else mean
  {
    ReduceIsSeedPlusSum(DefaultAudioFeatures(), fs, field);
  }

  /** Because of the seed, averaging a single record is not the identity: energy 0.9 averages to 1.4. */
  lemma AverageOfOneTrack(f: AudioFeatures)
    requires f.energy == 0.9
    ensures AverageFeatures([f]).energy == 1.4
  {
    AverageIncludesDefault([f], Energy);
  }

  /** The ranges Spotify documents for each field. */
  predicate InConventionalRanges(f: AudioFeatures)
  {
    && 0.0 <= f.acousticness <= 1.0 && 0.0 <= f.danceability <= 1.0 && 0.0 <= f.energy <= 1.0
    && 0.0 <= f.instrumentalness <= 1.0 && 0.0 <= f.liveness <= 1.0 && -60.0 <= f.loudness <= 0.0
    && 0.0 <= f.speechiness <= 1.0 && 0.0 <= f.tempo <= 200.0 && 0.0 <= f.valence <= 1.0
    && 0.0 <= f.key <= 11.0 && 0.0 <= f.mode <= 1.0 && 0.0 <= f.timeSignature <= 7.0
  }

  /**
   * `audioFeaturesToVector`: twelve components in the source's order; loudness becomes
   * loudness/60 + 1, tempo tempo/200, key key/11, time signature time_signature/7.
   */
  function ToVector(f: AudioFeatures): (v: seq<real>)
    ensures |v| == 12
  {
    [f.acousticness, f.danceability, f.energy, f.instrumentalness, f.liveness,
     f.loudness / 60.0 + 1.0, f.speechiness, f.tempo / 200.0, f.valence,
     f.key / 11.0, f.mode, f.timeSignature / 7.0]
  }

  /** Normalisation puts every component of a record within the documented ranges into [0, 1]. */
  lemma VectorInUnitRange(f: AudioFeatures)
    requires InConventionalRanges(f)
    ensures forall i :: 0 <= i < 12 ==> 0.0 <= ToVector(f)[i] <= 1.0
  {
  }

  /** The default record lies within the documented ranges. */
  lemma DefaultInConventionalRanges()
    ensures InConventionalRanges(DefaultAudioFeatures())
  {
  }

  /**
   * The seeded average can leave the documented ranges even when every input lies within
   * them, so a vibe vector component can fall outside [0, 1].
   */
  lemma AverageCanLeaveRanges()
    ensures var f := AudioFeatures(0.5, 0.5, 0.9, 0.5, 0.5, -10.0, 0.5, 120.0, 0.5, 5.0, 1.0, 4.0);
      InConventionalRanges(f) && !InConventionalRanges(AverageFeatures([f]))
  {
    var f := AudioFeatures(0.5, 0.5, 0.9, 0.5, 0.5, -10.0, 0.5, 120.0, 0.5, 5.0, 1.0, 4.0);
    AverageOfOneTrack(f);
  }
}

=== FILE: genres.dfy ===
/**
 * Genre handling of the vibe analysis: `getTopGenres` (frequency ranking of the
 * normalised genre names, at most five) and `calculateGenreSimilarity` (Jaccard
 * similarity of the lower-cased genre sets).
 */
module Genres {
  import opened Seqs
  import opened Text
  import opened StableSort
  import opened Chunking

  /** How many genres a profile keeps. */
  const TopCount: nat := 5

  /** `genre.toLowerCase().trim()` */
  function Normalize(g: string): string
  {
    Trim(Lower(g))
  }

  /** The genres the `forEach` visits, each normalised, in input order. */
  function NormalizeAll(genres: seq<string>): (ns: seq<string>)
    ensures |ns| == |genres|
  {
    seq(|genres|, i requires 0 <= i < |genres| => Normalize(genres[i]))
  }

  /** One `[genre, count]` pair of `Object.entries(genreCounts)`. */
  datatype Entry = Entry(genre: string, count: nat)

  /** The entries of the count table: its keys in insertion order, each with its count. */
  function Entries(ns: seq<string>): seq<Entry>
  {
    var keys := Dedup(ns);
    seq(|keys|, i requires 0 <= i < |keys| => Entry(keys[i], multiset(ns)[keys[i]]))
  }

  /** The comparator `([, a], [, b]) => b - a` as an ascending sort key. */
  function ByCountDescending(e: Entry): real
  {
    -(e.count as real)
  }

  /** `.sort(...).slice(0, 5)` */
  function TopEntries(ns: seq<string>): seq<Entry>
  {
    var sorted := SortBy(Entries(ns), ByCountDescending);
    sorted[..Min(TopCount, |sorted|)]
  }

  function Names(es: seq<Entry>): (r: seq<string>)
    ensures |r| == |es|
  {
    seq(|es|, i requires 0 <= i < |es| => es[i].genre)
  }

  /** What `getTopGenres(genres)` returns. */
  function TopGenresOf(genres: seq<string>): seq<string>
  {
    Names(TopEntries(NormalizeAll(genres)))
  }

  /** The count table after the genres s: its keys in insertion order and each key's count. */
  ghost predicate Tallies(counts: map<string, nat>, keys: seq<string>, s: seq<string>)
  {
    && keys == Dedup(s)
    && (forall g :: g in counts <==> g in s)
    && (forall g :: g in counts ==> counts[g] == multiset(s)[g])
  }

  /** One `genreCounts[g] = (genreCounts[g] || 0) + 1` keeps the table in step with the genres seen. */
  lemma TallyStep(counts: map<string, nat>, keys: seq<string>, s: seq<string>, g: string)
    requires Tallies(counts, keys, s)
    ensures Tallies(counts[g := (if g in counts then counts[g] else 0) + 1],
                    if g in counts then keys else keys + [g], s + [g])
  {
    DedupSnoc(s, g);
    DedupMembers(s);
  }

  /** The step of the loop at index i. */
  lemma TallyNext(counts: map<string, nat>, keys: seq<string>, ns: seq<string>, i: nat)
    requires i < |ns| && Tallies(counts, keys, ns[..i])
    ensures var g := ns[i];
      Tallies(counts[g := (if g in counts then counts[g] else 0) + 1],
              if g in counts then keys else keys + [g], ns[..i + 1])
  {
    assert ns[..i + 1] == ns[..i] + [ns[i]];
    TallyStep(counts, keys, ns[..i], ns[i]);
  }

  /** `getTopGenres`: the counting loop over a mutable table, then the sort and the slice. */
  method TopGenres(genres: seq<string>) returns (top: seq<string>)
    ensures top == TopGenresOf(genres)
  {
    var counts, keys := CountGenres(genres);
    TallyEntries(counts, keys, NormalizeAll(genres));
    var sorted := SortBy(EntriesOf(counts, keys), ByCountDescending);
    top := Names(sorted[..Min(TopCount, |sorted|)]);
  }

  /** The `forEach` that fills `genreCounts`; keys lists the table's keys in insertion order. */
  method CountGenres(genres: seq<string>) returns (counts: map<string, nat>, keys: seq<string>)
    ensures Tallies(counts, keys, NormalizeAll(genres))
  {
    ghost var ns := NormalizeAll(genres);
    counts, keys := map[], [];
    var i := 0;
    while i < |genres|
      invariant 0 <= i <= |genres|
      invariant Tallies(counts, keys, ns[..i])
    {
      var g := Normalize(genres[i]);
      assert g == ns[i];
      TallyNext(counts, keys, ns, i);
      keys := if g in counts then keys else keys + [g];
      counts := counts[g := (if g in counts then counts[g] else 0) + 1];
      i := i + 1;
    }
    assert ns[..i] == ns;
  }

  /** The `Object.entries` of a count table whose keys are listed in keys. */
  function EntriesOf(counts: map<string, nat>, keys: seq<string>): (es: seq<Entry>)
    requires forall k :: k in keys ==> k in counts
    ensures |es| == |keys|
  {
    seq(|keys|, j requires 0 <= j < |keys| => Entry(keys[j], counts[keys[j]]))
  }

  /** The table the loop builds has the entries of the genres it counted. */
  lemma TallyEntries(counts: map<string, nat>, keys: seq<string>, ns: seq<string>)
    requires Tallies(counts, keys, ns)
    ensures forall k :: k in keys ==> k in counts
    ensures EntriesOf(counts, keys) == Entries(ns)
  {
    DedupMembers(ns);
  }

  /** Facts about the count table's entries: distinct, in first-seen order, each with its true count. */
  lemma EntriesFacts(ns: seq<string>)
    ensures NoDuplicates(Entries(ns))
    ensures forall e :: e in Entries(ns) ==> e.genre in ns && e.count == multiset(ns)[e.genre]
    ensures forall g :: g in ns ==> Entry(g, multiset(ns)[g]) in Entries(ns)
  {
    var keys := Dedup(ns);
    DedupMembers(ns);
    DedupDistinct(ns);
    forall g | g in ns
      ensures Entry(g, multiset(ns)[g]) in Entries(ns)
    {
      var k :| 0 <= k < |keys| && keys[k] == g;
      assert Entries(ns)[k] == Entry(g, multiset(ns)[g]);
    }
  }

  /** Every entry of the sorted table is an entry of the table. */
  lemma SortedEntriesFacts(ns: seq<string>)
    ensures var sorted := SortBy(Entries(ns), ByCountDescending);
      && |sorted| == |Entries(ns)| == |Dedup(ns)|
      && SortedBy(sorted, ByCountDescending)
      && NoDuplicates(sorted)
      && forall e :: e in sorted ==> e in Entries(ns)
  {
    var entries := Entries(ns);
    var sorted := SortBy(entries, ByCountDescending);
    EntriesFacts(ns);
    SortByOrdered(entries, ByCountDescending);
    assert |sorted| == |multiset(sorted)| == |multiset(entries)| == |entries|;
    forall e | e in sorted
      ensures e in entries
    {
      assert e in multiset(sorted);
    }
    forall i, j | 0 <= i < j < |sorted|
      ensures sorted[i] != sorted[j]
    {
      if sorted[i] == sorted[j] {
        RepeatedTwice(sorted, i, j);
        DistinctAtMostOnce(entries, sorted[i]);
        assert false;
      }
    }
  }

  /**
   * The top genres: min(5, number of distinct genres) of them, distinct, each a
   * lower-cased, trimmed genre of the input, listed by non-increasing count.
   */
  lemma TopGenresRanked(genres: seq<string>)
    ensures var ns, r := NormalizeAll(genres), TopGenresOf(genres);
      && |r| == Min(TopCount, |Dedup(ns)|)
      && NoDuplicates(r)
      && (forall g :: g in r ==> g in ns)
      && forall i, j :: 0 <= i < j < |r| ==> multiset(ns)[r[i]] >= multiset(ns)[r[j]]
  {
    var ns := NormalizeAll(genres);
    var sorted := SortBy(Entries(ns), ByCountDescending);
    SortedEntriesFacts(ns);
    var top := sorted[..Min(TopCount, |sorted|)];
    var r := Names(top);
    assert r == TopGenresOf(genres);
    forall i | 0 <= i < |r|
      ensures r[i] in ns && top[i].count == multiset(ns)[r[i]]
    {
      SortedEntryCount(ns, i);
    }
    forall i, j | 0 <= i < j < |r|
      ensures r[i] != r[j] && multiset(ns)[r[i]] >= multiset(ns)[r[j]]
    {
      assert top[i] == sorted[i] && top[j] == sorted[j];
      assert ByCountDescending(sorted[i]) <= ByCountDescending(sorted[j]);
    }
  }

  /**
   * Nothing better is left out: a genre of the input that is not among the top genres
   * means five genres were kept, each at least as frequent as it.
   */
  lemma TopGenresAreMostFrequent(genres: seq<string>, g: string)
    requires g in NormalizeAll(genres) && g !in TopGenresOf(genres)
    ensures |TopGenresOf(genres)| == TopCount
    ensures forall x :: x in TopGenresOf(genres) ==> multiset(NormalizeAll(genres))[x] >= multiset(NormalizeAll(genres))[g]
  {
    var ns := NormalizeAll(genres);
    var sorted := SortBy(Entries(ns), ByCountDescending);
    var p := SortedPosition(ns, g);
    var m := Min(TopCount, |sorted|);
    var r := Names(sorted[..m]);
    assert r == TopGenresOf(genres);
    forall i | 0 <= i < m
      ensures sorted[i].genre != g
    {
      assert r[i] == sorted[i].genre;
    }
    assert m <= p;
    SortByOrdered(Entries(ns), ByCountDescending);
    forall x | x in r
      ensures multiset(ns)[x] >= multiset(ns)[g]
    {
      var i :| 0 <= i < |r| && r[i] == x;
      SortedEntryCount(ns, i);
      assert ByCountDescending(sorted[i]) <= ByCountDescending(sorted[p]);
    }
  }

  /** Each entry of the sorted table carries its genre's true count. */
  lemma SortedEntryCount(ns: seq<string>, i: nat)
    requires i < |SortBy(Entries(ns), ByCountDescending)|
    ensures var e := SortBy(Entries(ns), ByCountDescending)[i];
      e.genre in ns && e.count == multiset(ns)[e.genre]
  {
    var sorted := SortBy(Entries(ns), ByCountDescending);
    SortByOrdered(Entries(ns), ByCountDescending);
    assert sorted[i] in multiset(sorted);
    EntriesFacts(ns);
  }

  /** Where a counted genre's entry sits in the sorted table. */
  lemma SortedPosition(ns: seq<string>, g: string) returns (p: nat)
    requires g in ns
    ensures var sorted := SortBy(Entries(ns), ByCountDescending);
      p < |sorted| && sorted[p] == Entry(g, multiset(ns)[g])
  {
    var sorted := SortBy(Entries(ns), ByCountDescending);
    EntriesFacts(ns);
    SortByOrdered(Entries(ns), ByCountDescending);
    var e := Entry(g, multiset(ns)[g]);
    assert e in multiset(sorted);
    p :| 0 <= p < |sorted| && sorted[p] == e;
  }

  /**
   * Ties keep first-seen order: for every count, the kept entries with that count are a
   * prefix of the table's entries with that count, and the table lists the genres in
   * the order they first occur.
   */
  lemma TopGenresTiesFirstSeen(genres: seq<string>, c: real)
    ensures var ns := NormalizeAll(genres);
      WithKey(TopEntries(ns), ByCountDescending, c) <= WithKey(Entries(ns), ByCountDescending, c)
    ensures var ns, es := NormalizeAll(genres), Entries(NormalizeAll(genres));
      forall i, j :: 0 <= i < j < |es| ==> es[i].genre in ns && es[j].genre in ns && IndexOf(ns, es[i].genre) < IndexOf(ns, es[j].genre)
  {
    var ns := NormalizeAll(genres);
    var sorted := SortBy(Entries(ns), ByCountDescending);
    var m := Min(TopCount, |sorted|);
    assert sorted == sorted[..m] + sorted[m..];
    WithKeyAppend(sorted[..m], sorted[m..], ByCountDescending, c);
    SortByStable(Entries(ns), ByCountDescending, c);
    DedupFirstSeenOrder(ns);
  }

  /** The lower-cased genre names of a list, as a `Set`. */
  function LowerSet(gs: seq<string>): set<string>
  {
    set g | g in gs :: Lower(g)
  }

  /**
   * `calculateGenreSimilarity`: 1 when both lists are empty, 0 when exactly one is,
   * otherwise the Jaccard similarity |A ∩ B| / |A ∪ B| of the lower-cased sets.
   */
  function GenreSimilarity(g1: seq<string>, g2: seq<string>): real
  {
    if |g1| == 0 && |g2| == 0 then 1.0
    else if |g1| == 0 || |g2| == 0 then 0.0
    else
      var s1, s2 := LowerSet(g1), LowerSet(g2);
      assert Lower(g1[0]) in s1 + s2;
      |s1 * s2| as real / |s1 + s2| as real
  }

  /** Genre similarity lies in [0, 1]. */
  lemma GenreSimilarityBounds(g1: seq<string>, g2: seq<string>)
    ensures 0.0 <= GenreSimilarity(g1, g2) <= 1.0
  {
    if g1 != [] && g2 != [] {
      var s1, s2 := LowerSet(g1), LowerSet(g2);
      assert Lower(g1[0]) in s1 + s2;
      CardinalityOfSubset(s1 * s2, s1 + s2);
      RatioInUnitRange(|s1 * s2|, |s1 + s2|);
    }
  }

  lemma RatioInUnitRange(a: nat, b: nat)
    requires a <= b && 0 < b
    ensures 0.0 <= a as real / b as real <= 1.0
  {
    assert a as real / b as real * b as real == a as real;
  }

  /** Genre similarity does not depend on the order of its arguments. */
  lemma GenreSimilaritySymmetric(g1: seq<string>, g2: seq<string>)
    ensures GenreSimilarity(g1, g2) == GenreSimilarity(g2, g1)
  {
    if g1 != [] && g2 != [] {
      var s1, s2 := LowerSet(g1), LowerSet(g2);
      assert s1 * s2 == s2 * s1 && s1 + s2 == s2 + s1;
    }
  }

  /** A genre list is fully similar to itself, empty or not. */
  lemma GenreSimilaritySelf(g: seq<string>)
    ensures GenreSimilarity(g, g) == 1.0
  {
    if g != [] {
      var s := LowerSet(g);
      assert s * s == s + s;
      assert Lower(g[0]) in s;
    }
  }

  /** The worked examples: an empty pair, one empty list, and case-insensitive matching. */
  lemma GenreSimilarityExamples()
    ensures GenreSimilarity([], []) == 1.0
    ensures GenreSimilarity(["rock"], []) == 0.0
    ensures GenreSimilarity(["Rock"], ["rock"]) == 1.0
  {
    LowerLiterals();
    assert LowerSet(["Rock"]) == {"rock"};
    assert LowerSet(["rock"]) == {"rock"};
  }

  /** One shared genre out of three distinct ones gives 1/3. */
  lemma GenreSimilarityOneThird()
    ensures GenreSimilarity(["rock", "pop"], ["pop", "jazz"]) == 1.0 / 3.0
  {
    LowerLiterals();
    var a, b := LowerSet(["rock", "pop"]), LowerSet(["pop", "jazz"]);
    assert a == {"rock", "pop"};
    assert b == {"pop", "jazz"};
    assert a * b == {"pop"};
    assert a + b == {"rock", "pop", "jazz"};
  }

  lemma LowerLiterals()
    ensures Lower("Rock") == "rock" && Lower("rock") == "rock"
    ensures Lower("pop") == "pop" && Lower("jazz") == "jazz"
  {
    LowerProperties("Rock");
    LowerProperties("rock");
    LowerProperties("pop");
    LowerProperties("jazz");
    assert Lower("Rock")[0] == 'r';
  }
}

=== FILE: profiles.dfy ===
/**
 * `createVibeProfile`: the tracks' ids are sent to `getAudioFeatures`, the returned
 * records are paired with the tracks BY POSITION (the default record filling in past the
 * end), the vibe vector is the seeded average of the paired records, and the top genres
 * come from the genres of every artist of every track.
 */
module VibeProfiles {
  import opened Common
  import opened Features
  import opened FeatureFetch
  import opened Genres
  import opened Chunking

  /** An artist as Spotify returns it; `genres` may be absent. */
  datatype Artist = Artist(name: string, genres: Option<seq<string>>)

  /** An input track; the empty string stands for a missing (falsy) id. */
  datatype Track = Track(id: string, name: string, artists: seq<Artist>, uri: string)

  datatype TrackWithFeatures = TrackWithFeatures(
    id: string, name: string, artists: seq<Artist>, uri: string, features: AudioFeatures)

  /** A user's vibe profile; `createdAt` is the clock reading, in milliseconds. */
  datatype VibeProfile = VibeProfile(
    userId: string,
    displayName: string,
    tracks: seq<TrackWithFeatures>,
    averageFeatures: AudioFeatures,
    topGenres: seq<string>,
    createdAt: int)

  /** `tracks.map(track => track.id).filter(Boolean)`: the ids that are present, in order. */
  function TrackIds(tracks: seq<Track>): (ids: seq<string>)
    ensures |ids| <= |tracks|
    ensures forall id :: id in ids ==> id != ""
  {
    if tracks == [] then []
    else TrackIds(tracks[..|tracks| - 1]) + (if tracks[|tracks| - 1].id != "" then [tracks[|tracks| - 1].id] else [])
  }

  /** With every id present, the id list is the tracks' ids one for one. */
  lemma {:induction false} TrackIdsAllPresent(tracks: seq<Track>)
    requires forall i :: 0 <= i < |tracks| ==> tracks[i].id != ""
    ensures |TrackIds(tracks)| == |tracks|
    ensures forall i :: 0 <= i < |tracks| ==> TrackIds(tracks)[i] == tracks[i].id
  {
    if tracks != [] {
      TrackIdsAllPresent(tracks[..|tracks| - 1]);
    }
  }

  /**
   * The `tracks.map((track, index) => ...)`: track i keeps its own fields and takes the
   * i-th fetched record, or the default one past the end. The following `filter` keeps
   * every entry, since a record is always present.
   */
  function PairFeatures(tracks: seq<Track>, features: seq<AudioFeatures>): seq<TrackWithFeatures>
  {
    seq(|tracks|, i requires 0 <= i < |tracks| =>
      var t := tracks[i];
      TrackWithFeatures(t.id, t.name, t.artists, t.uri, if i < |features| then features[i] else DefaultAudioFeatures()))
  }

  function FeaturesOfTracks(ts: seq<TrackWithFeatures>): (r: seq<AudioFeatures>)
    ensures |r| == |ts|
  {
    seq(|ts|, i requires 0 <= i < |ts| => ts[i].features)
  }

  /** `artists.flatMap(artist => artist.genres || [])` */
  function ArtistGenres(artists: seq<Artist>): seq<string>
  {
    if artists == [] then []
    else (match artists[0].genres case None => [] case Some(gs) => gs) + ArtistGenres(artists[1..])
  }

  /** `tracks.flatMap(track => track.artists.flatMap(...))` */
  function TrackGenres(tracks: seq<Track>): seq<string>
  {
    if tracks == [] then [] else ArtistGenres(tracks[0].artists) + TrackGenres(tracks[1..])
  }

  /** What `createVibeProfile(userId, displayName, tracks)` resolves to at clock reading `now`. */
  function VibeProfileOf(userId: string, displayName: string, tracks: seq<Track>,
                         fetch: seq<string> -> FetchResponse, now: int): VibeProfile
  {
    var paired := PairFeatures(tracks, FetchedFeatures(TrackIds(tracks), fetch));
    VibeProfile(userId, displayName, paired, AverageFeatures(FeaturesOfTracks(paired)),
                TopGenresOf(TrackGenres(tracks)), now)
  }

  /** `createVibeProfile`, running the fetch loop and the genre-counting loop. */
  method CreateVibeProfile(userId: string, displayName: string, tracks: seq<Track>,
                           fetch: seq<string> -> FetchResponse, now: int) returns (profile: VibeProfile)
    ensures profile == VibeProfileOf(userId, displayName, tracks, fetch, now)
  {
    var ids := TrackIds(tracks);
    var features := GetAudioFeatures(ids, fetch);
    var paired := PairFeatures(tracks, features);
    var topGenres := TopGenres(TrackGenres(tracks));
    profile := VibeProfile(userId, displayName, paired, AverageFeatures(FeaturesOfTracks(paired)), topGenres, now);
  }

  /**
   * The profile keeps every input track, in order and with its own fields; track i
   * carries the i-th fetched record or the default; the vibe vector averages exactly one
   * record per track.
   */
  lemma ProfileTracks(userId: string, displayName: string, tracks: seq<Track>,
                      fetch: seq<string> -> FetchResponse, now: int)
    ensures var p, fs := VibeProfileOf(userId, displayName, tracks, fetch, now), FetchedFeatures(TrackIds(tracks), fetch);
      && |p.tracks| == |tracks|
      && (forall i :: 0 <= i < |tracks| ==>
            && p.tracks[i].id == tracks[i].id && p.tracks[i].name == tracks[i].name
            && p.tracks[i].artists == tracks[i].artists && p.tracks[i].uri == tracks[i].uri
            && p.tracks[i].features == if i < |fs| then fs[i] else DefaultAudioFeatures())
      && |FeaturesOfTracks(p.tracks)| == |tracks|
      && p.averageFeatures == AverageFeatures(FeaturesOfTracks(p.tracks))
  {
  }

  /** When every track has an id and the service knows every id, each track gets its own record. */
  lemma AlignedWhenComplete(userId: string, displayName: string, tracks: seq<Track>,
                            lookup: string -> AudioFeatures, now: int)
    requires forall i :: 0 <= i < |tracks| ==> tracks[i].id != ""
    ensures var p := VibeProfileOf(userId, displayName, tracks, Complete(lookup), now);
      forall i :: 0 <= i < |tracks| ==> p.tracks[i].features == lookup(tracks[i].id)
  {
    TrackIdsAllPresent(tracks);
    FetchedComplete(TrackIds(tracks), lookup);
  }

  /**
   * The positional pairing misaligns when a track has no id: its neighbour's record is
   * given to it, and the last track falls back to the default.
   */
  lemma MisalignedWhenIdMissing(lookup: string -> AudioFeatures, now: int)
    ensures var tracks := [Track("", "first", [], "uri:1"), Track("b", "second", [], "uri:2")];
      var p := VibeProfileOf("u", "U", tracks, Complete(lookup), now);
      p.tracks[0].features == lookup("b") && p.tracks[1].features == DefaultAudioFeatures()
  {
    var tracks := [Track("", "first", [], "uri:1"), Track("b", "second", [], "uri:2")];
    assert tracks[..1] == [tracks[0]];
    assert TrackIds(tracks[..1]) == [] by {
      assert tracks[..1][..0] == [];
    }
    assert TrackIds(tracks) == ["b"];
    FetchedComplete(["b"], lookup);
  }

  /**
   * The positional pairing also misaligns when the service answers null for a known id:
   * the null is dropped, the next record moves up to the earlier track, and the last
   * track falls back to the default.
   */
  lemma MisalignedWhenFeatureNull(fb: AudioFeatures, now: int)
    ensures var tracks := [Track("a", "first", [], "uri:1"), Track("b", "second", [], "uri:2")];
      var fetch := (batch: seq<string>) => Features([None, Some(fb)]);
      var p := VibeProfileOf("u", "U", tracks, fetch, now);
      p.tracks[0].features == fb && p.tracks[1].features == DefaultAudioFeatures()
  {
    var tracks := [Track("a", "first", [], "uri:1"), Track("b", "second", [], "uri:2")];
    var fetch := (batch: seq<string>) => Features([None, Some(fb)]);
    var ids := ["a", "b"];
    TrackIdsAllPresent(tracks);
    assert TrackIds(tracks) == ids;
    assert Chunks(ids, BatchSize) == [ids] by {
      assert Min(BatchSize, |ids|) == 2;
      assert ids[..2] == ids && ids[2..] == [];
    }
    PresentAppend([None], [Some(fb)]);
    PresentSingles(fb);
    assert Present([None, Some(fb)]) == [fb] by {
      assert [None] + [Some(fb)] == [None, Some(fb)];
    }
    assert [ids][..0] == [];
    assert Gathered([ids], fetch) == Some([] + [fb]);
    assert FetchedFeatures(ids, fetch) == [fb];
  }

  /** When a request throws, every track gets the default record. */
  lemma DefaultsWhenFetchThrows(userId: string, displayName: string, tracks: seq<Track>,
                                fetch: seq<string> -> FetchResponse, now: int, k: nat)
    requires k < |Chunks(TrackIds(tracks), BatchSize)|
    requires fetch(Chunks(TrackIds(tracks), BatchSize)[k]).Thrown?
    ensures var p := VibeProfileOf(userId, displayName, tracks, fetch, now);
      forall i :: 0 <= i < |tracks| ==> p.tracks[i].features == DefaultAudioFeatures()
  {
    ThrowEmptiesResult(TrackIds(tracks), fetch, k);
  }

  /** The genre list holds exactly the genres of the artists of the tracks, absent lists counting as empty. */
  lemma {:induction false} ArtistGenresMembers(artists: seq<Artist>, g: string)
    ensures g in ArtistGenres(artists) <==> exists a :: a in artists && a.genres.Some? && g in a.genres.value
  {
    if artists != [] {
      ArtistGenresMembers(artists[1..], g);
      assert artists == [artists[0]] + artists[1..];
    }
  }

  lemma {:induction false} TrackGenresMembers(tracks: seq<Track>, g: string)
    ensures g in TrackGenres(tracks) <==> exists t :: t in tracks && g in ArtistGenres(t.artists)
  {
    if tracks != [] {
      TrackGenresMembers(tracks[1..], g);
      assert tracks == [tracks[0]] + tracks[1..];
    }
  }

  /** The profile's top genres are normalised genres of the tracks' artists, at most five. */
  lemma ProfileGenres(userId: string, displayName: string, tracks: seq<Track>,
                      fetch: seq<string> -> FetchResponse, now: int)
    ensures var p := VibeProfileOf(userId, displayName, tracks, fetch, now);
      && |p.topGenres| <= TopCount
      && forall g :: g in p.topGenres ==> exists raw :: raw in TrackGenres(tracks) && g == Normalize(raw)
  {
    var genres := TrackGenres(tracks);
    TopGenresRanked(genres);
    var ns := NormalizeAll(genres);
    forall g | g in TopGenresOf(genres)
      ensures exists raw :: raw in genres && g == Normalize(raw)
    {
      var i :| 0 <= i < |ns| && ns[i] == g;
      assert genres[i] in genres;
    }
  }
}

=== FILE: seqs.dfy ===
/** Sequence vocabulary: concatenation of batches, first occurrence, and the order of a JavaScript `Set`. */
module Seqs {

  /** The concatenation of ss, in order. */
  function Flatten<T>(ss: seq<seq<T>>): seq<T>
  {
    if ss == [] then [] else ss[0] + Flatten(ss[1..])
  }

  lemma {:induction false} FlattenSnoc<T>(ss: seq<seq<T>>, t: seq<T>)
    ensures Flatten(ss + [t]) == Flatten(ss) + t
  {
    if ss == [] {
      assert [] + [t] == [t];
    } else {
      assert (ss + [t])[1..] == ss[1..] + [t];
      FlattenSnoc(ss[1..], t);
    }
  }

  lemma Associative<T>(a: seq<T>, b: seq<T>, c: seq<T>)
    ensures a + (b + c) == (a + b) + c
  {
  }

  predicate NoDuplicates<T(==)>(s: seq<T>)
  {
    forall i, j :: 0 <= i < j < |s| ==> s[i] != s[j]
  }

  /** The position of the first occurrence of x in s. */
  function IndexOf<T(==)>(s: seq<T>, x: T): (i: nat)
    requires x in s
    ensures i < |s| && s[i] == x && x !in s[..i]
  {
    if s[0] == x then 0 else 1 + IndexOf(s[1..], x)
  }

  /**
   * The elements of s, each once, in the order they are first met: the iteration order
   * of a JavaScript `Set` into which the elements of s are added one after the other.
   */
  function Dedup<T(==)>(s: seq<T>): seq<T>
  {
    if s == [] then []
    else
      var d := Dedup(s[..|s| - 1]);
      if s[|s| - 1] in d then d else d + [s[|s| - 1]]
  }

  /** Adding one more element to the `Set` keeps the old order and appends x if it is new. */
  lemma DedupSnoc<T>(s: seq<T>, x: T)
    ensures Dedup(s + [x]) == if x in Dedup(s) then Dedup(s) else Dedup(s) + [x]
  {
    assert (s + [x])[..|s|] == s;
  }

  /** The first occurrence of an element of a prefix is the one in the prefix. */
  lemma IndexOfPrefix<T>(p: seq<T>, s: seq<T>, x: T)
    requires x in p && p <= s
    ensures IndexOf(s, x) == IndexOf(p, x)
  {
    var a, b := IndexOf(p, x), IndexOf(s, x);
    assert s[a] == x;
    assert s[..a] == p[..a];
  }

  /** The `Set` holds exactly the elements of s, and no more of them than s has. */
  lemma {:induction false} DedupMembers<T>(s: seq<T>)
    ensures forall x :: x in Dedup(s) <==> x in s
    ensures |Dedup(s)| <= |s|
    decreases |s|
  {
    if s != [] {
      var p, x := s[..|s| - 1], s[|s| - 1];
      assert s == p + [x];
      DedupMembers(p);
      DedupSnoc(p, x);
    }
  }

  /** The `Set` order holds each element once. */
  lemma {:induction false} DedupDistinct<T>(s: seq<T>)
    ensures NoDuplicates(Dedup(s))
    decreases |s|
  {
    if s != [] {
      var p, x := s[..|s| - 1], s[|s| - 1];
      assert s == p + [x];
      DedupDistinct(p);
      DedupSnoc(p, x);
    }
  }

  /** The `Set` order lists the elements by increasing position of their first occurrence in s. */
  lemma {:induction false} DedupFirstSeenOrder<T>(s: seq<T>)
    ensures forall x :: x in Dedup(s) ==> x in s
    ensures forall i, j :: 0 <= i < j < |Dedup(s)| ==> IndexOf(s, Dedup(s)[i]) < IndexOf(s, Dedup(s)[j])
    decreases |s|
  {
    DedupMembers(s);
    if s != [] {
      var p, x := s[..|s| - 1], s[|s| - 1];
      assert s == p + [x];
      DedupFirstSeenOrder(p);
      DedupMembers(p);
      DedupSnoc(p, x);
      assert p <= s;
      forall y | y in p
        ensures IndexOf(s, y) == IndexOf(p, y) < |p|
      {
        IndexOfPrefix(p, s, y);
      }
      if x !in Dedup(p) {
        assert x !in p;
        assert IndexOf(s, x) == |p|;
      }
    }
  }

  /** In a sequence without duplicates every value occurs at most once. */
  lemma {:induction false} DistinctAtMostOnce<T>(s: seq<T>, x: T)
    requires NoDuplicates(s)
    ensures multiset(s)[x] <= 1
  {
    if s != [] {
      assert s == [s[0]] + s[1..];
      DistinctAtMostOnce(s[1..], x);
      if s[0] == x {
        assert x !in s[1..];
      }
    }
  }

  /** A value found at two positions occurs at least twice. */
  lemma RepeatedTwice<T>(s: seq<T>, i: nat, j: nat)
    requires i < j < |s| && s[i] == s[j]
    ensures multiset(s)[s[i]] >= 2
  {
    assert s == s[..j] + [s[j]] + s[j + 1..];
    assert s[..j][i] == s[i];
    assert multiset(s[..j])[s[i]] >= 1;
  }

  /** The elements of s, as a set. */
  function Elements<T>(s: seq<T>): set<T>
  {
    set x | x in s
  }

  /** A sequence has at least as many positions as distinct elements, and exactly as many when it has no duplicates. */
  lemma {:induction false} ElementsCount<T>(s: seq<T>)
    ensures |Elements(s)| <= |s|
    ensures NoDuplicates(s) ==> |Elements(s)| == |s|
  {
    if s != [] {
      var p, x := s[..|s| - 1], s[|s| - 1];
      assert s == p + [x];
      ElementsCount(p);
      assert Elements(s) == Elements(p) + {x};
      if NoDuplicates(s) {
        assert NoDuplicates(p);
        assert x !in p;
      }
    }
  }

  /** A sequence with a repeated element has fewer distinct elements than positions. */
  lemma ElementsCountRepeated<T>(s: seq<T>, i: nat, j: nat)
    requires i < j < |s| && s[i] == s[j]
    ensures |Elements(s)| < |s|
  {
    var t := s[..j] + s[j + 1..];
    assert s == s[..j] + [s[j]] + s[j + 1..];
    assert s[..j][i] == s[j];
    assert Elements(s) == Elements(t);
    ElementsCount(t);
  }

  /** A subset is no larger than its superset. */
  lemma CardinalityOfSubset<T>(a: set<T>, b: set<T>)
    requires a <= b
    ensures |a| <= |b|
  {
    assert b == a + (b - a);
  }
}

=== FILE: server.dfy ===
/**
 * The Express server's own logic: the login state string, the OAuth callback's state
 * guard, and `createUltimatePlaylist`, which merges the user's top tracks over three time
 * ranges into one playlist. Spotify is outside the model: what it answers is passed in,
 * and the code exchange and the requests that change a playlist are appended to an
 * action log. The read-only requests (`getMe`, `getMyTopTracks`, `getPlaylistTracks`)
 * are not logged.
 */
module ApiServer {
  import opened Common
  import opened Seqs
  import opened Chunking

  /** The 62 characters the state string is drawn from. */
  const Alphabet: string := "ABCDEFGHIJKLMNOPQRSTUVWXYZabcdefghijklmnopqrstuvwxyz0123456789"

  /** The length of the state string `/api/login` generates. */
  const StateLength: nat := 16

  /** The character `possible.charAt(Math.floor(r * possible.length))` picks for a draw r in [0, 1). */
  function CharFor(r: real): (c: char)
    requires 0.0 <= r < 1.0
    ensures c in Alphabet
  {
    var k := (r * |Alphabet| as real).Floor;
    assert 0 <= k < |Alphabet|;
    Alphabet[k]
  }

  /** The string built from the draws random(0), ..., random(n - 1). */
  function RandomString(n: nat, random: nat -> real): string
    requires forall i :: 0.0 <= random(i) < 1.0
  {
    if n == 0 then "" else RandomString(n - 1, random) + [CharFor(random(n - 1))]
  }

  /** `generateRandomString(length)`, with `Math.random()` as the oracle `random`. */
  method GenerateRandomString(length: nat, random: nat -> real) returns (text: string)
    requires forall i :: 0.0 <= random(i) < 1.0
    ensures |text| == length
    ensures forall c :: c in text ==> c in Alphabet
    ensures text == RandomString(length, random)
  {
    text := "";
    var i := 0;
    while i < length
      invariant 0 <= i <= length
      invariant text == RandomString(i, random)
      invariant |text| == i && forall c :: c in text ==> c in Alphabet
    {
      text := text + [CharFor(random(i))];
      i := i + 1;
    }
  }

  /** The three `time_range` values, fetched in this order. */
  datatype TimeRange = ShortTerm | MediumTerm | LongTerm

  const TimeRanges: seq<TimeRange> := [ShortTerm, MediumTerm, LongTerm]

  /** What `getMyTopTracks` does for one range: it throws, or it yields the tracks' URIs. */
  datatype RangeResponse = RangeFailed | RangeItems(uris: seq<string>)

  /** The URIs one range contributes: none when its request threw. */
  function Returned(response: RangeResponse): seq<string>
  {
    match response
    case RangeFailed => []
    case RangeItems(uris) => uris
  }

  /** The URIs of the three ranges, in fetch order. */
  function AllReturned(ranges: TimeRange -> RangeResponse): seq<string>
  {
    Returned(ranges(ShortTerm)) + Returned(ranges(MediumTerm)) + Returned(ranges(LongTerm))
  }

  /** `Array.from(allTracks)`: each URI once, in the order the `Set` first received it. */
  function MergedUris(ranges: TimeRange -> RangeResponse): seq<string>
  {
    Dedup(AllReturned(ranges))
  }

  const PlaylistName: string := "Vibecheck.me - Ultimate Playlist"
  const AddChunkSize: nat := 100

  /** A logged request: the code exchange or a request that changes a playlist. */
  datatype Action =
    | ExchangeCode(code: Option<string>)
    | CreatePlaylist(userId: string, name: string)
    | RemoveTracks(playlistId: string, uris: seq<string>)
    | AddTracks(playlistId: string, uris: seq<string>)

  /** One `addTracksToPlaylist` per chunk, in order. */
  function AddAll(playlistId: string, chunks: seq<seq<string>>): (r: seq<Action>)
    ensures |r| == |chunks|
  {
    seq(|chunks|, i requires 0 <= i < |chunks| => AddTracks(playlistId, chunks[i]))
  }

  /** The id the playlist has after the run: the recorded one, or the new one when none is recorded. */
  function TargetPlaylist(playlistId: string, newId: string): string
  {
    if playlistId == "" then newId else playlistId
  }

  /**
   * The playlist requests `createUltimatePlaylist` makes for a user whose recorded playlist id is
   * playlistId ("" when unset), given the ranges' answers, the id a new playlist gets,
   * and the URIs already on the playlist.
   */
  function PlaylistActions(userId: string, playlistId: string, ranges: TimeRange -> RangeResponse,
                           newId: string, existing: seq<string>): seq<Action>
  {
    var merged := MergedUris(ranges);
    if merged == [] then []
    else
      var pid := TargetPlaylist(playlistId, newId);
      (if playlistId == "" then [CreatePlaylist(userId, PlaylistName)] else [])
        + (if existing != [] then [RemoveTracks(pid, existing)] else [])
        + AddAll(pid, Chunks(merged, AddChunkSize))
  }

  /** A logged-in user; the same object is held by the session and by the `users` map. */
  class SpotifyUser {
    const id: string
    const displayName: string
    const email: string
    const accessToken: string
    const refreshToken: string
    /** The ultimate playlist's id; "" while none is recorded. */
    var playlistId: string

    constructor (id: string, displayName: string, email: string, accessToken: string, refreshToken: string)
      ensures this.id == id && this.displayName == displayName && this.email == email
      ensures this.accessToken == accessToken && this.refreshToken == refreshToken
      ensures playlistId == ""
    {
      this.id := id;
      this.displayName := displayName;
      this.email := email;
      this.accessToken := accessToken;
      this.refreshToken := refreshToken;
      playlistId := "";
    }
  }

  /** What the token exchange and `getMe` yield when they succeed. */
  datatype Grant = Grant(id: string, displayName: string, email: string, accessToken: string, refreshToken: string)

  /** How `/api/callback` answers. */
  datatype CallbackResult = StateMismatch | RedirectToUser(userId: string) | RedirectAuthFailed

  /** The server's state: the in-memory `users` map, one client's session, and the logged requests made so far. */
  class Server {
    var users: map<string, SpotifyUser>
    var sessionState: Option<string>
    var sessionUser: Option<SpotifyUser>
    var log: seq<Action>

    constructor ()
      ensures users == map[] && sessionState == None && sessionUser == None && log == []
    {
      users := map[];
      sessionState := None;
      sessionUser := None;
      log := [];
    }

    /** `/api/login`: a fresh 16-character state is generated and stored in the session. */
    method Login(random: nat -> real) returns (state: string)
      requires forall i :: 0.0 <= random(i) < 1.0
      modifies this
      ensures |state| == StateLength && forall c :: c in state ==> c in Alphabet
      ensures sessionState == Some(state)
      ensures users == old(users) && sessionUser == old(sessionUser) && log == old(log)
    {
      state := GenerateRandomString(StateLength, random);
      sessionState := Some(state);
    }

    /**
     * `/api/callback`: a query state that differs from the session's is refused with 400
     * before any request is sent; otherwise the code is exchanged, and on success the user
     * is stored in the session and the map and the playlist is created or refreshed.
     * grant is None when the exchange or `getMe` throws.
     */
    method Callback(code: Option<string>, queryState: Option<string>, grant: Option<Grant>,
                    ranges: TimeRange -> RangeResponse, newId: string, existing: seq<string>)
      returns (result: CallbackResult)
      modifies this
      ensures sessionState == old(sessionState)
      ensures result == StateMismatch <==> queryState != old(sessionState)
      ensures queryState != old(sessionState) ==>
        users == old(users) && sessionUser == old(sessionUser) && log == old(log)
      ensures queryState == old(sessionState) && grant.None? ==>
        && result == RedirectAuthFailed
        && users == old(users) && sessionUser == old(sessionUser) && log == old(log) + [ExchangeCode(code)]
      ensures queryState == old(sessionState) && grant.Some? ==>
        var g := grant.value;
        && result == RedirectToUser(g.id)
        && sessionUser.Some? && fresh(sessionUser.value)
        && sessionUser.value.id == g.id && sessionUser.value.displayName == g.displayName
        && sessionUser.value.email == g.email
        && sessionUser.value.accessToken == g.accessToken && sessionUser.value.refreshToken == g.refreshToken
        && users == old(users)[g.id := sessionUser.value]
        && log == old(log) + [ExchangeCode(code)] + PlaylistActions(g.id, "", ranges, newId, existing)
        && sessionUser.value.playlistId == if MergedUris(ranges) == [] then "" else newId
    {
      if queryState != sessionState {
        return StateMismatch;
      }
      log := log + [ExchangeCode(code)];
      if grant.None? {
        return RedirectAuthFailed;
      }
      var g := grant.value;
      var user := new SpotifyUser(g.id, g.displayName, g.email, g.accessToken, g.refreshToken);
      sessionUser := Some(user);
      users := users[user.id := user];
      CreateUltimatePlaylist(user, ranges, newId, existing);
      result := RedirectToUser(g.id);
    }

    /**
     * `createUltimatePlaylist(user)`: no playlist request is made when the three ranges yield
     * no URI; otherwise a playlist is created (and recorded on the user and in the map) only
     * when the user has none, its old tracks are removed, and the merged URIs are added in
     * chunks of at most 100.
     */
    method CreateUltimatePlaylist(user: SpotifyUser, ranges: TimeRange -> RangeResponse,
                                  newId: string, existing: seq<string>)
      modifies this, user
      ensures sessionState == old(sessionState) && sessionUser == old(sessionUser)
      ensures users == if MergedUris(ranges) != [] && old(user.playlistId) == "" then old(users)[user.id := user] else old(users)
      ensures log == old(log) + PlaylistActions(user.id, old(user.playlistId), ranges, newId, existing)
      ensures user.playlistId ==
        if MergedUris(ranges) == [] then old(user.playlistId) else TargetPlaylist(old(user.playlistId), newId)
    {
      var merged := MergeTopTracks(ranges);
      if |merged| == 0 {
        return;
      }
      ghost var recorded, log0 := user.playlistId, log;
      var playlistId := EnsurePlaylist(user, newId);
      ghost var created := if recorded == "" then [CreatePlaylist(user.id, PlaylistName)] else [];
      ghost var removed := if existing != [] then [RemoveTracks(playlistId, existing)] else [];
      if existing != [] {
        log := log + [RemoveTracks(playlistId, existing)];
      }
      assert log == (log0 + created) + removed;
      ghost var adds := AddAll(playlistId, Chunks(merged, AddChunkSize));
      AddInChunks(playlistId, merged);
      PlaylistActionsParts(user.id, recorded, ranges, newId, existing);
      LogParts(log0, created, removed, adds);
    }

    /** The `if (!playlistId)` branch: a playlist is created and recorded on the user and in the map. */
    method EnsurePlaylist(user: SpotifyUser, newId: string) returns (playlistId: string)
      modifies this, user
      ensures playlistId == TargetPlaylist(old(user.playlistId), newId) && user.playlistId == playlistId
      ensures users == if old(user.playlistId) == "" then old(users)[user.id := user] else old(users)
      ensures log == old(log) + if old(user.playlistId) == "" then [CreatePlaylist(user.id, PlaylistName)] else []
      ensures sessionState == old(sessionState) && sessionUser == old(sessionUser)
    {
      playlistId := user.playlistId;
      if playlistId == "" {
        log := log + [CreatePlaylist(user.id, PlaylistName)];
        playlistId := newId;
        user.playlistId := playlistId;
        users := users[user.id := user];
      }
    }

    /** The `for (let i = 0; i < trackUris.length; i += chunkSize)` loop of `addTracksToPlaylist` requests. */
    method AddInChunks(playlistId: string, merged: seq<string>)
      modifies this
      ensures users == old(users) && sessionState == old(sessionState) && sessionUser == old(sessionUser)
      ensures log == old(log) + AddAll(playlistId, Chunks(merged, AddChunkSize))
    {
      ghost var chunks: seq<seq<string>> := [];
      var i := 0;
      while i < |merged|
        invariant chunks + Chunks(merged[Min(i, |merged|)..], AddChunkSize) == Chunks(merged, AddChunkSize)
        invariant log == old(log) + AddAll(playlistId, chunks)
        invariant users == old(users) && sessionState == old(sessionState) && sessionUser == old(sessionUser)
      {
        var chunk := merged[i..Min(i + AddChunkSize, |merged|)];
        NextChunk(merged, i);
        Associative(chunks, [chunk], Chunks(merged[Min(i + AddChunkSize, |merged|)..], AddChunkSize));
        AddAllSnoc(playlistId, chunks, chunk);
        Associative(old(log), AddAll(playlistId, chunks), [AddTracks(playlistId, chunk)]);
        log := log + [AddTracks(playlistId, chunk)];
        chunks := chunks + [chunk];
        i := i + AddChunkSize;
      }
      assert chunks == Chunks(merged, AddChunkSize);
    }
  }

  lemma LogParts(log: seq<Action>, created: seq<Action>, removed: seq<Action>, adds: seq<Action>)
    ensures ((log + created) + removed) + adds == log + (created + removed + adds)
  {
  }

  /** The playlist requests of a run with URIs to add: the creation, the removal, then the additions. */
  lemma PlaylistActionsParts(userId: string, playlistId: string, ranges: TimeRange -> RangeResponse,
                             newId: string, existing: seq<string>)
    requires MergedUris(ranges) != []
    ensures var pid := TargetPlaylist(playlistId, newId);
      PlaylistActions(userId, playlistId, ranges, newId, existing)
        == (if playlistId == "" then [CreatePlaylist(userId, PlaylistName)] else [])
           + (if existing != [] then [RemoveTracks(pid, existing)] else [])
           + AddAll(pid, Chunks(MergedUris(ranges), AddChunkSize))
  {
  }

  /** The slice the loop takes at i is the first chunk of what is left. */
  lemma NextChunk(s: seq<string>, i: nat)
    requires i < |s|
    ensures Chunks(s[i..], AddChunkSize) == [s[i..Min(i + AddChunkSize, |s|)]] + Chunks(s[Min(i + AddChunkSize, |s|)..], AddChunkSize)
  {
    var rest := s[i..];
    assert rest[..Min(AddChunkSize, |rest|)] == s[i..Min(i + AddChunkSize, |s|)];
    assert rest[Min(AddChunkSize, |rest|)..] == s[Min(i + AddChunkSize, |s|)..];
  }

  lemma AddAllSnoc(playlistId: string, chunks: seq<seq<string>>, chunk: seq<string>)
    ensures AddAll(playlistId, chunks + [chunk]) == AddAll(playlistId, chunks) + [AddTracks(playlistId, chunk)]
  {
  }

  /** The loop over the three ranges, adding every URI of every answer to the `Set`. */
  method MergeTopTracks(ranges: TimeRange -> RangeResponse) returns (merged: seq<string>)
    ensures merged == MergedUris(ranges)
  {
    ghost var answers := [Returned(ranges(ShortTerm)), Returned(ranges(MediumTerm)), Returned(ranges(LongTerm))];
    merged := [];
    var r := 0;
    while r < |TimeRanges|
      invariant 0 <= r <= |TimeRanges|
      invariant merged == Dedup(Flatten(answers[..r]))
    {
      var uris := Returned(ranges(TimeRanges[r]));
      assert uris == answers[r];
      merged := AddToSet(merged, Flatten(answers[..r]), uris);
      assert answers[..r + 1] == answers[..r] + [uris];
      FlattenSnoc(answers[..r], uris);
      r := r + 1;
    }
    assert answers[..r] == answers;
    FlattenThree(answers);
  }

  /** `items.forEach(item => allTracks.add(item.uri))` on a `Set` that has received seen so far. */
  method AddToSet(merged: seq<string>, ghost seen: seq<string>, uris: seq<string>) returns (result: seq<string>)
    requires merged == Dedup(seen)
    ensures result == Dedup(seen + uris)
  {
    result := merged;
    var j := 0;
    assert seen + uris[..0] == seen;
    while j < |uris|
      invariant 0 <= j <= |uris|
      invariant result == Dedup(seen + uris[..j])
    {
      DedupNext(seen, uris, j);
      if uris[j] !in result {
        result := result + [uris[j]];
      }
      j := j + 1;
    }
    assert uris[..j] == uris;
  }

  /** Adding the next URI to the `Set` appends it unless it is already there. */
  lemma DedupNext(seen: seq<string>, uris: seq<string>, j: nat)
    requires j < |uris|
    ensures var before := Dedup(seen + uris[..j]);
      Dedup(seen + uris[..j + 1]) == if uris[j] in before then before else before + [uris[j]]
  {
    assert seen + uris[..j + 1] == (seen + uris[..j]) + [uris[j]];
    DedupSnoc(seen + uris[..j], uris[j]);
  }

  lemma FlattenThree(answers: seq<seq<string>>)
    requires |answers| == 3
    ensures Flatten(answers) == answers[0] + answers[1] + answers[2]
  {
    var a1, a2 := answers[1..], answers[2..];
    assert a1[1..] == a2 && a2[1..] == [];
    assert Flatten(a2) == answers[2] + [];
    assert Flatten(a1) == answers[1] + Flatten(a2);
  }

  /** The merged list holds each URI once. */
  lemma MergedDistinct(ranges: TimeRange -> RangeResponse)
    ensures NoDuplicates(MergedUris(ranges))
  {
    DedupDistinct(AllReturned(ranges));
  }

  /**
   * A URI is merged exactly when one of the ranges returned it, and the merged list is in
   * first-seen order: short term, then medium term, then long term, each answer in its order.
   */
  lemma MergedMembersInOrder(ranges: TimeRange -> RangeResponse)
    ensures forall u :: u in MergedUris(ranges) <==>
      u in Returned(ranges(ShortTerm)) || u in Returned(ranges(MediumTerm)) || u in Returned(ranges(LongTerm))
    ensures var m, all := MergedUris(ranges), AllReturned(ranges);
      forall i, j :: 0 <= i < j < |m| ==> m[i] in all && m[j] in all && IndexOf(all, m[i]) < IndexOf(all, m[j])
  {
    DedupMembers(AllReturned(ranges));
    DedupFirstSeenOrder(AllReturned(ranges));
  }

  /** A range whose request throws contributes nothing, and the other ranges are still merged. */
  lemma FailedRangeContributesNothing(ranges: TimeRange -> RangeResponse, failed: TimeRange)
    requires ranges(failed).RangeFailed?
    ensures MergedUris(ranges) == MergedUris(t => if t == failed then RangeItems([]) else ranges(t))
  {
    var other := t => if t == failed then RangeItems([]) else ranges(t);
    assert Returned(ranges(ShortTerm)) == Returned(other(ShortTerm));
    assert Returned(ranges(MediumTerm)) == Returned(other(MediumTerm));
    assert Returned(ranges(LongTerm)) == Returned(other(LongTerm));
  }

  /**
   * With no URI to add no playlist request is made; otherwise a playlist is created exactly
   * when none is recorded, and the added chunks hold 1 to 100 URIs each and together are
   * the merged list, in order.
   */
  lemma PlaylistActionsSpec(userId: string, playlistId: string, ranges: TimeRange -> RangeResponse,
                            newId: string, existing: seq<string>)
    ensures var acts, merged := PlaylistActions(userId, playlistId, ranges, newId, existing), MergedUris(ranges);
      && (merged == [] ==> acts == [])
      && (CreatePlaylist(userId, PlaylistName) in acts <==> merged != [] && playlistId == "")
      && (merged != [] ==>
            var pid := TargetPlaylist(playlistId, newId);
            var adds := Chunks(merged, AddChunkSize);
            && acts[|acts| - |adds|..] == AddAll(pid, adds)
            && Flatten(adds) == merged
            && forall c :: c in adds ==> 0 < |c| <= AddChunkSize)
  {
    var merged := MergedUris(ranges);
    if merged != [] {
      var pid := TargetPlaylist(playlistId, newId);
      var adds := Chunks(merged, AddChunkSize);
      FlattenChunks(merged, AddChunkSize);
      ChunkSizes(merged, AddChunkSize);
      var acts := PlaylistActions(userId, playlistId, ranges, newId, existing);
      var head := (if playlistId == "" then [CreatePlaylist(userId, PlaylistName)] else [])
        + (if existing != [] then [RemoveTracks(pid, existing)] else []);
      assert acts == head + AddAll(pid, adds);
      assert acts[|acts| - |adds|..] == AddAll(pid, adds);
      assert CreatePlaylist(userId, PlaylistName) !in AddAll(pid, adds);
    }
  }

  /**
   * The callback builds a new user object without a playlist id, so a successful login
   * with any top track always creates a new playlist, even for a user already in the map.
   */
  lemma CallbackAlwaysCreates(userId: string, ranges: TimeRange -> RangeResponse, newId: string, existing: seq<string>)
    requires MergedUris(ranges) != []
    ensures CreatePlaylist(userId, PlaylistName) in PlaylistActions(userId, "", ranges, newId, existing)
  {
    PlaylistActionsSpec(userId, "", ranges, newId, existing);
  }
}

=== FILE: stable_sort.dfy ===
/**
 * `Array.prototype.sort` with a comparator of the form `(a, b) => key(a) - key(b)`.
 * The ECMAScript sort is stable, so its result is determined: the elements in
 * ascending key order, elements with equal keys in their original order. A
 * descending comparator `(a, b) => key(b) - key(a)` is the ascending sort on `-key`.
 */
module StableSort {
  import opened Seqs

  /** Places x after every element of the sorted s whose key is not greater than its own. */
  function Insert<T>(s: seq<T>, x: T, key: T -> real): (r: seq<T>)
    ensures multiset(r) == multiset(s) + multiset{x}
  {
    if s == [] then [x]
    else if key(s[0]) <= key(x) then
      assert s == [s[0]] + s[1..];
      [s[0]] + Insert(s[1..], x, key)
    else [x] + s
  }

  /** Stable insertion sort by ascending key. */
  function SortBy<T>(s: seq<T>, key: T -> real): seq<T>
  {
    if s == [] then [] else Insert(SortBy(s[..|s| - 1], key), s[|s| - 1], key)
  }

  ghost predicate SortedBy<T>(s: seq<T>, key: T -> real)
  {
    forall i, j :: 0 <= i < j < |s| ==> key(s[i]) <= key(s[j])
  }

  /** x alone when its key is k, nothing otherwise. */
  function Keep<T>(x: T, key: T -> real, k: real): seq<T>
  {
    if key(x) == k then [x] else []
  }

  /** The elements of s whose key is k, in their order in s. */
  function WithKey<T>(s: seq<T>, key: T -> real, k: real): seq<T>
  {
    if s == [] then [] else Keep(s[0], key, k) + WithKey(s[1..], key, k)
  }

  lemma {:induction false} WithKeyAppend<T>(a: seq<T>, b: seq<T>, key: T -> real, k: real)
    ensures WithKey(a + b, key, k) == WithKey(a, key, k) + WithKey(b, key, k)
  {
    if a == [] {
      assert a + b == b;
    } else {
      var ab := a + b;
      assert ab[0] == a[0];
      assert ab[1..] == a[1..] + b;
      WithKeyAppend(a[1..], b, key, k);
      calc {
        WithKey(ab, key, k);
        Keep(a[0], key, k) + WithKey(a[1..] + b, key, k);
        Keep(a[0], key, k) + (WithKey(a[1..], key, k) + WithKey(b, key, k));
        { Associative(Keep(a[0], key, k), WithKey(a[1..], key, k), WithKey(b, key, k)); }
        (Keep(a[0], key, k) + WithKey(a[1..], key, k)) + WithKey(b, key, k);
      }
    }
  }

  lemma {:induction false} WithKeyAbsent<T>(s: seq<T>, key: T -> real, k: real)
    requires forall i :: 0 <= i < |s| ==> key(s[i]) != k
    ensures WithKey(s, key, k) == []
  {
    if s != [] {
      WithKeyAbsent(s[1..], key, k);
    }
  }

  lemma SortedTail<T>(s: seq<T>, key: T -> real)
    requires s != [] && SortedBy(s, key)
    ensures SortedBy(s[1..], key)
  {
    forall i, j | 0 <= i < j < |s[1..]| ensures key(s[1..][i]) <= key(s[1..][j]) {
      assert s[1..][i] == s[i + 1] && s[1..][j] == s[j + 1];
    }
  }

  lemma {:induction false} InsertSorted<T>(s: seq<T>, x: T, key: T -> real)
    requires SortedBy(s, key)
    ensures SortedBy(Insert(s, x, key), key)
  {
    if s != [] && key(s[0]) <= key(x) {
      var r := Insert(s[1..], x, key);
      SortedTail(s, key);
      InsertSorted(s[1..], x, key);
      forall j | 0 <= j < |r|
        ensures key(s[0]) <= key(r[j])
      {
        assert r[j] in multiset(r);
        assert r[j] in multiset(s[1..]) || r[j] == x;
      }
    }
  }

  /** Inserting x after its equals keeps, for every key, the original order and adds x last. */
  lemma {:induction false} InsertStable<T>(s: seq<T>, x: T, key: T -> real, k: real)
    requires SortedBy(s, key)
    ensures WithKey(Insert(s, x, key), key, k) == WithKey(s, key, k) + Keep(x, key, k)
  {
    if s == [] {
      assert Insert(s, x, key) == [x];
      assert WithKey([x], key, k) == Keep(x, key, k) + WithKey([x][1..], key, k);
    } else if key(s[0]) <= key(x) {
      SortedTail(s, key);
      InsertStable(s[1..], x, key, k);
      InsertBehindHead(s, x, key, k);
    } else {
      assert Insert(s, x, key) == [x] + s;
      InsertInFront(s, x, key, k);
    }
  }

  /** When x goes behind the head of s, the head stays in front of the equals of x. */
  lemma InsertBehindHead<T>(s: seq<T>, x: T, key: T -> real, k: real)
    requires s != [] && key(s[0]) <= key(x)
    requires WithKey(Insert(s[1..], x, key), key, k) == WithKey(s[1..], key, k) + Keep(x, key, k)
    ensures WithKey(Insert(s, x, key), key, k) == WithKey(s, key, k) + Keep(x, key, k)
  {
    var r := Insert(s[1..], x, key);
    var sr := [s[0]] + r;
    assert Insert(s, x, key) == sr;
    assert sr[0] == s[0] && sr[1..] == r;
    calc {
      WithKey(sr, key, k);
      Keep(s[0], key, k) + WithKey(r, key, k);
      Keep(s[0], key, k) + (WithKey(s[1..], key, k) + Keep(x, key, k));
      { Associative(Keep(s[0], key, k), WithKey(s[1..], key, k), Keep(x, key, k)); }
      (Keep(s[0], key, k) + WithKey(s[1..], key, k)) + Keep(x, key, k);
    }
  }

  /** An element placed before a sorted s with larger keys comes last among its equals, as it has none there. */
  lemma InsertInFront<T>(s: seq<T>, x: T, key: T -> real, k: real)
    requires SortedBy(s, key) && s != [] && key(x) < key(s[0])
    ensures WithKey([x] + s, key, k) == WithKey(s, key, k) + Keep(x, key, k)
  {
    var xs := [x] + s;
    assert xs[0] == x && xs[1..] == s;
    assert WithKey(xs, key, k) == Keep(x, key, k) + WithKey(s, key, k);
    if key(x) == k {
      forall i | 0 <= i < |s|
        ensures key(s[i]) != k
      {
        assert key(s[0]) <= key(s[i]);
      }
      WithKeyAbsent(s, key, k);
    }
  }

  /** The sorted sequence is ordered by key and is a permutation of the input. */
  lemma {:induction false} SortByOrdered<T>(s: seq<T>, key: T -> real)
    ensures SortedBy(SortBy(s, key), key)
    ensures multiset(SortBy(s, key)) == multiset(s)
  {
    if s != [] {
      var p := s[..|s| - 1];
      assert s == p + [s[|s| - 1]];
      SortByOrdered(p, key);
      InsertSorted(SortBy(p, key), s[|s| - 1], key);
    }
  }

  /** Stability: for every key, the elements with that key keep their relative order. */
  lemma {:induction false} SortByStable<T>(s: seq<T>, key: T -> real, k: real)
    ensures WithKey(SortBy(s, key), key, k) == WithKey(s, key, k)
  {
    if s != [] {
      var p, x := s[..|s| - 1], s[|s| - 1];
      assert s == p + [x];
      SortByStable(p, key, k);
      SortByOrdered(p, key);
      InsertStable(SortBy(p, key), x, key, k);
      WithKeyAppend(p, [x], key, k);
    }
  }

  /** When every key is the same, the sort changes nothing. */
  lemma {:induction false} SortByConstantKey<T>(s: seq<T>, key: T -> real, k: real)
    requires forall i :: 0 <= i < |s| ==> key(s[i]) == k
    ensures SortBy(s, key) == s
  {
    SortByStable(s, key, k);
    AllWithKey(s, key, k);
    SortByOrdered(s, key);
    var r := SortBy(s, key);
    forall i | 0 <= i < |r|
      ensures key(r[i]) == k
    {
      assert r[i] in multiset(s);
    }
    AllWithKey(r, key, k);
  }

  lemma {:induction false} AllWithKey<T>(s: seq<T>, key: T -> real, k: real)
    requires forall i :: 0 <= i < |s| ==> key(s[i]) == k
    ensures WithKey(s, key, k) == s
  {
    if s != [] {
      AllWithKey(s[1..], key, k);
    }
  }
}

=== FILE: text.dfy ===
/**
 * The string operations the source relies on: `toLowerCase`, `trim` and `includes`.
 * Case folding and white space are those of ASCII.
 */
module Text {

  predicate IsUpper(c: char) { 'A' <= c <= 'Z' }

  function LowerChar(c: char): char
  {
    if IsUpper(c) then (c as int + 32) as char else c
  }

  /** `toLowerCase`: every upper-case letter becomes its lower-case letter, nothing else changes. */
  function Lower(s: string): string
  {
    seq(|s|, i requires 0 <= i < |s| => LowerChar(s[i]))
  }

  lemma LowerProperties(s: string)
    ensures |Lower(s)| == |s|
    ensures forall i :: 0 <= i < |s| ==> !IsUpper(Lower(s)[i])
    ensures forall i :: 0 <= i < |s| && IsUpper(s[i]) ==> Lower(s)[i] as int == s[i] as int + 32
    ensures forall i :: 0 <= i < |s| && !IsUpper(s[i]) ==> Lower(s)[i] == s[i]
  {
  }

  /** At every position the two characters are equal or are the two cases of one ASCII letter. */
  predicate SameIgnoringCase(a: string, b: string)
  {
    && |a| == |b|
    && forall i :: 0 <= i < |a| ==>
         || a[i] == b[i]
         || (IsUpper(a[i]) && b[i] as int == a[i] as int + 32)
         || (IsUpper(b[i]) && a[i] as int == b[i] as int + 32)
  }

  /** Two strings have the same `toLowerCase` exactly when they differ only in ASCII case. */
  lemma LowerIgnoresCase(a: string, b: string)
    ensures Lower(a) == Lower(b) <==> SameIgnoringCase(a, b)
  {
    if Lower(a) == Lower(b) {
      forall i | 0 <= i < |a|
        ensures || a[i] == b[i]
                || (IsUpper(a[i]) && b[i] as int == a[i] as int + 32)
                || (IsUpper(b[i]) && a[i] as int == b[i] as int + 32)
      {
        assert LowerChar(a[i]) == Lower(a)[i] == Lower(b)[i] == LowerChar(b[i]);
      }
    }
    if SameIgnoringCase(a, b) {
      forall i | 0 <= i < |a|
        ensures Lower(a)[i] == Lower(b)[i]
      {
        assert LowerChar(a[i]) == LowerChar(b[i]);
      }
    }
  }

  predicate IsSpace(c: char)
  {
    c == ' ' || c == '\t' || c == '\n' || c == '\r' || c == '\U{B}' || c == '\U{C}'
  }

  function TrimStart(s: string): string
  {
    if s != [] && IsSpace(s[0]) then TrimStart(s[1..]) else s
  }

  function TrimEnd(s: string): string
  {
    if s != [] && IsSpace(s[|s| - 1]) then TrimEnd(s[..|s| - 1]) else s
  }

  /** `trim`: the white space at both ends is removed and the middle is kept. */
  function Trim(s: string): string
  {
    TrimEnd(TrimStart(s))
  }

  lemma {:induction false} TrimStartProperties(s: string)
    ensures TrimStart(s) == [] || !IsSpace(TrimStart(s)[0])
    ensures |TrimStart(s)| <= |s| && TrimStart(s) == s[|s| - |TrimStart(s)|..]
  {
    if s != [] && IsSpace(s[0]) {
      TrimStartProperties(s[1..]);
    }
  }

  lemma {:induction false} TrimEndProperties(s: string)
    ensures TrimEnd(s) == [] || !IsSpace(TrimEnd(s)[|TrimEnd(s)| - 1])
    ensures |TrimEnd(s)| <= |s| && TrimEnd(s) == s[..|TrimEnd(s)|]
  {
    if s != [] && IsSpace(s[|s| - 1]) {
      var p := s[..|s| - 1];
      TrimEndProperties(p);
      assert p[..|TrimEnd(p)|] == s[..|TrimEnd(p)|];
    }
  }

  /**
   * The result of `trim` is a slice of s that neither starts nor ends with white space,
   * and everything of s before and after that slice is white space.
   */
  lemma TrimProperties(s: string)
    ensures var r, a := Trim(s), |s| - |TrimStart(s)|;
      && (r == [] || (!IsSpace(r[0]) && !IsSpace(r[|r| - 1])))
      && 0 <= a && a + |r| <= |s|
      && r == s[a..a + |r|]
      && (forall i :: 0 <= i < a ==> IsSpace(s[i]))
      && (forall i :: a + |r| <= i < |s| ==> IsSpace(s[i]))
  {
    var t := TrimStart(s);
    TrimStartProperties(s);
    TrimStartSkipsSpace(s);
    TrimEndProperties(t);
    TrimEndSkipsSpace(t);
    var r := Trim(s);
    var a := |s| - |t|;
    if r != [] {
      assert r[0] == t[0];
    }
    assert r == t[..|r|];
    forall i | a + |r| <= i < |s|
      ensures IsSpace(s[i])
    {
      assert s[i] == t[i - a];
    }
  }

  /** What `TrimStart` drops is white space. */
  lemma {:induction false} TrimStartSkipsSpace(s: string)
    ensures |TrimStart(s)| <= |s|
    ensures forall i :: 0 <= i < |s| - |TrimStart(s)| ==> IsSpace(s[i])
  {
    if s != [] && IsSpace(s[0]) {
      TrimStartSkipsSpace(s[1..]);
      forall i | 1 <= i < |s| - |TrimStart(s)|
        ensures IsSpace(s[i])
      {
        assert s[i] == s[1..][i - 1];
      }
    }
  }

  /** What `TrimEnd` drops is white space. */
  lemma {:induction false} TrimEndSkipsSpace(s: string)
    ensures |TrimEnd(s)| <= |s|
    ensures forall i :: |TrimEnd(s)| <= i < |s| ==> IsSpace(s[i])
  {
    if s != [] && IsSpace(s[|s| - 1]) {
      var p := s[..|s| - 1];
      TrimEndSkipsSpace(p);
      forall i | |TrimEnd(s)| <= i < |s| - 1
        ensures IsSpace(s[i])
      {
        assert s[i] == p[i];
      }
    }
  }

  /** `s.includes(sub)`: sub occurs in s at some position. */
  predicate Contains(s: string, sub: string)
  {
    |sub| <= |s| && (s[..|sub|] == sub || Contains(s[1..], sub))
  }

  lemma ContainsEmpty(s: string)
    ensures Contains(s, [])
  {
  }
}

=== FILE: usage_limits.dfy ===
/**
 * The monthly usage limit of the Farcaster mini app: a record `{count, lastReset}` per
 * user in `localStorage`, reset after 30 days, with 5 uses allowed per window. The web
 * app has no limit. The context, the clock and the storage are passed in.
 */
module UsageLimits {

  datatype AppContext = Web | Farcaster

  /** What `localStorage.getItem(key)` holds: an empty string, text that does not parse, or a usage record. */
  datatype StoredValue = Blank | Unparsable | Usage(count: int, lastReset: int)

  /** Uses allowed per window. */
  const Limit: int := 5

  /** The window, 30 days of 86 400 000 ms. */
  const DayMillis: int := 86400000
  const WindowMillis: int := 30 * DayMillis

  /** `fc_usage_${userId}` */
  function StorageKey(userId: string): string
  {
    "fc_usage_" + userId
  }

  /** `(now - lastReset) / (1000 * 60 * 60 * 24) > 30`, stated on integers. */
  predicate Stale(now: int, lastReset: int)
  {
    now - lastReset > WindowMillis
  }

  /** The integer comparison is the source's division by the length of a day compared with 30. */
  lemma StaleIsThirtyDays(now: int, lastReset: int)
    ensures Stale(now, lastReset) <==> (now - lastReset) as real / DayMillis as real > 30.0
  {
    var d := (now - lastReset) as real;
    assert d / DayMillis as real * DayMillis as real == d;
  }

  /** The stored value under key; Blank when there is none, which `!usageData` treats like the empty string. */
  function Lookup(storage: map<string, StoredValue>, key: string): StoredValue
  {
    if key in storage then storage[key] else Blank
  }

  /** What `hasReachedUsageLimit(userId)` returns ("" stands for a null user id). */
  predicate LimitReached(storage: map<string, StoredValue>, userId: string, context: AppContext, now: int)
  {
    if userId == "" || context == Web then false
    else
      match Lookup(storage, StorageKey(userId))
      case Usage(count, lastReset) => !Stale(now, lastReset) && count >= Limit
      case _ => false
  }

  /** The storage after `hasReachedUsageLimit(userId)`: a stale record is rewritten as `{count: 0, lastReset: now}`. */
  function AfterLimitCheck(storage: map<string, StoredValue>, userId: string, context: AppContext, now: int): map<string, StoredValue>
  {
    if userId == "" || context == Web then storage
    else
      var key := StorageKey(userId);
      match Lookup(storage, key)
      case Usage(_, lastReset) => if Stale(now, lastReset) then storage[key := Usage(0, now)] else storage
      case _ => storage
  }

  /** The storage after `incrementUsageCount(userId)`; there is no check for an empty user id here. */
  function Incremented(storage: map<string, StoredValue>, userId: string, context: AppContext, now: int): map<string, StoredValue>
  {
    if context == Web then storage
    else
      var key := StorageKey(userId);
      match Lookup(storage, key)
      case Usage(count, lastReset) =>
        if Stale(now, lastReset) then storage[key := Usage(1, now)] else storage[key := Usage(count + 1, lastReset)]
      case _ => storage[key := Usage(1, now)]
  }

  datatype UsageStats = UsageStats(count: int, remaining: int)

  /** `getUsageStats(userId)`: (0, -1) means unlimited; an absent, stale or unreadable record counts as unused. */
  function GetUsageStats(storage: map<string, StoredValue>, userId: string, context: AppContext, now: int): (r: UsageStats)
    ensures r.remaining == -1 <==> userId == "" || context == Web
    ensures r.remaining != -1 ==> r.remaining >= 0
  {
    if userId == "" || context == Web then UsageStats(0, -1)
    else
      match Lookup(storage, StorageKey(userId))
      case Usage(count, lastReset) =>
        if Stale(now, lastReset) then UsageStats(0, Limit)
        else UsageStats(count, if Limit - count > 0 then Limit - count else 0)
      case _ => UsageStats(0, Limit)
  }

  /** `localStorage`, the one piece of state the three operations share. */
  class UsageStore {
    var items: map<string, StoredValue>

    constructor (items: map<string, StoredValue>)
      ensures this.items == items
    {
      this.items := items;
    }

    /** `hasReachedUsageLimit` */
    method HasReachedUsageLimit(userId: string, context: AppContext, now: int) returns (reached: bool)
      modifies this
      ensures reached == LimitReached(old(items), userId, context, now)
      ensures items == AfterLimitCheck(old(items), userId, context, now)
    {
      if userId == "" {
        return false;
      }
      if context == Web {
        return false;
      }
      var key := StorageKey(userId);
      if key !in items || items[key] == Blank {
        return false;
      }
      match items[key] {
        case Unparsable =>
          return false;
        case Usage(count, lastReset) =>
          if now - lastReset > WindowMillis {
            items := items[key := Usage(0, now)];
            return false;
          }
          return count >= Limit;
      }
    }

    /** `incrementUsageCount` */
    method IncrementUsageCount(userId: string, context: AppContext, now: int)
      modifies this
      ensures items == Incremented(old(items), userId, context, now)
    {
      if context == Web {
        return;
      }
      var key := StorageKey(userId);
      if key !in items || items[key] == Blank {
        items := items[key := Usage(1, now)];
        return;
      }
      match items[key] {
        case Unparsable =>
          items := items[key := Usage(1, now)];
        case Usage(count, lastReset) =>
          if now - lastReset > WindowMillis {
            items := items[key := Usage(1, now)];
          } else {
            items := items[key := Usage(count + 1, lastReset)];
          }
      }
    }
  }

  /** On the web, nothing is limited, counted or stored. */
  lemma WebHasNoLimits(storage: map<string, StoredValue>, userId: string, now: int)
    ensures !LimitReached(storage, userId, Web, now)
    ensures AfterLimitCheck(storage, userId, Web, now) == storage
    ensures Incremented(storage, userId, Web, now) == storage
    ensures GetUsageStats(storage, userId, Web, now) == UsageStats(0, -1)
  {
  }

  /** Without a user id there is no limit, no write, and unlimited stats. */
  lemma NoUserNoLimit(storage: map<string, StoredValue>, context: AppContext, now: int)
    ensures !LimitReached(storage, "", context, now)
    ensures AfterLimitCheck(storage, "", context, now) == storage
    ensures GetUsageStats(storage, "", context, now) == UsageStats(0, -1)
  {
  }

  /**
   * In the mini app, an increment writes only the user's record: `{1, now}` with no or an
   * unreadable record or after 30 days, `{count + 1, lastReset}` within the window.
   */
  lemma IncrementRecord(storage: map<string, StoredValue>, userId: string, now: int)
    ensures var key, after := StorageKey(userId), Incremented(storage, userId, Farcaster, now);
      && key in after
      && (forall k :: k != key ==> (k in after <==> k in storage) && (k in storage ==> after[k] == storage[k]))
      && after[key] == match Lookup(storage, key)
           case Usage(count, lastReset) =>
             if Stale(now, lastReset) then Usage(1, now) else Usage(count + 1, lastReset)
           case _ => Usage(1, now)
  {
  }

  /**
   * The check says "reached" exactly for a record within the window with at least 5 uses;
   * it rewrites a stale record as `{0, now}` and touches nothing else.
   */
  lemma LimitCheckSpec(storage: map<string, StoredValue>, userId: string, now: int)
    requires userId != ""
    ensures var key := StorageKey(userId);
      && (LimitReached(storage, userId, Farcaster, now) <==>
            Lookup(storage, key).Usage? && !Stale(now, Lookup(storage, key).lastReset) && Lookup(storage, key).count >= Limit)
      && AfterLimitCheck(storage, userId, Farcaster, now) ==
           if Lookup(storage, key).Usage? && Stale(now, Lookup(storage, key).lastReset)
           then storage[key := Usage(0, now)] else storage
  {
  }

  /** The check and the stats agree: in the mini app the limit is reached exactly when no use remains. */
  lemma LimitAgreesWithStats(storage: map<string, StoredValue>, userId: string, now: int)
    requires userId != ""
    ensures LimitReached(storage, userId, Farcaster, now) <==> GetUsageStats(storage, userId, Farcaster, now).remaining == 0
  {
  }

  /** The storage after one `incrementUsageCount` at each time of ts, in order. */
  function UsesAt(storage: map<string, StoredValue>, userId: string, ts: seq<int>): map<string, StoredValue>
  {
    if ts == [] then storage
    else Incremented(UsesAt(storage, userId, ts[..|ts| - 1]), userId, Farcaster, ts[|ts| - 1])
  }

  /** Every use of ts falls at most 30 days after the first one. */
  predicate WithinFirstWindow(ts: seq<int>)
  {
    ts != [] && forall i :: 0 <= i < |ts| ==> ts[i] <= ts[0] + WindowMillis
  }

  /**
   * From no record, uses that all fall within 30 days of the first leave
   * `{count: number of uses, lastReset: time of the first use}`.
   */
  lemma {:induction false} UsesAtCount(storage: map<string, StoredValue>, userId: string, ts: seq<int>)
    requires Lookup(storage, StorageKey(userId)) == Blank && WithinFirstWindow(ts)
    ensures Lookup(UsesAt(storage, userId, ts), StorageKey(userId)) == Usage(|ts|, ts[0])
  {
    var p := ts[..|ts| - 1];
    if p == [] {
      assert UsesAt(storage, userId, p) == storage;
    } else {
      assert p[0] == ts[0];
      assert WithinFirstWindow(p) by {
        forall i | 0 <= i < |p| ensures p[i] <= p[0] + WindowMillis {
          assert p[i] == ts[i];
        }
      }
      UsesAtCount(storage, userId, p);
      assert !Stale(ts[|ts| - 1], ts[0]);
    }
  }

  /**
   * The cap: from no record, after n uses spread over at most 30 days, a check made
   * within 30 days of the first use says "reached" exactly when n >= 5, and the stats
   * show max(0, 5 - n) remaining.
   */
  lemma FiveUsesReachLimit(storage: map<string, StoredValue>, userId: string, ts: seq<int>, now: int)
    requires userId != "" && Lookup(storage, StorageKey(userId)) == Blank && WithinFirstWindow(ts)
    requires now <= ts[0] + WindowMillis
    ensures var after, n := UsesAt(storage, userId, ts), |ts|;
      && (LimitReached(after, userId, Farcaster, now) <==> n >= Limit)
      && GetUsageStats(after, userId, Farcaster, now) == UsageStats(n, if n < Limit then Limit - n else 0)
  {
    UsesAtCount(storage, userId, ts);
  }

  /** After 30 days the record starts over: one more use counts as the first. */
  lemma WindowResets(storage: map<string, StoredValue>, userId: string, count: int, lastReset: int, now: int)
    requires userId != "" && Lookup(storage, StorageKey(userId)) == Usage(count, lastReset)
    requires now > lastReset + WindowMillis
    ensures !LimitReached(storage, userId, Farcaster, now)
    ensures GetUsageStats(storage, userId, Farcaster, now) == UsageStats(0, Limit)
    ensures Lookup(Incremented(storage, userId, Farcaster, now), StorageKey(userId)) == Usage(1, now)
  {
  }
}

=== FILE: user_storage.dfy ===
/**
 * `UserStorage`: the serverless API's user table, an object from user id to a user record.
 * Records are objects of string-valued fields here; the table's insertion order is kept
 * beside it, since `Object.values` lists the records in that order.
 */
module UserStore {
  import opened Common
  import opened Seqs

  /** A user record: field name to value. */
  type Record = map<string, string>

  /** The field `setUser` stamps with the time of the write. */
  const LastUpdated: string := "lastUpdated"

  /** `{ ...existing, ...userData, lastUpdated: now }` */
  function MergeRecord(existing: Option<Record>, userData: Record, now: string): (r: Record)
    ensures forall f :: f in r <==> f == LastUpdated || f in userData || (existing.Some? && f in existing.value)
    ensures r[LastUpdated] == now
    ensures forall f :: f in userData && f != LastUpdated ==> r[f] == userData[f]
    ensures existing.Some? ==> forall f :: f in existing.value && f !in userData && f != LastUpdated ==> r[f] == existing.value[f]
  {
    var base := match existing case None => map[] case Some(rec) => rec;
    (base + userData)[LastUpdated := now]
  }

  /** One entry of `getAllUsers`: four fields, none of them a token; an absent field is None. */
  datatype Summary = Summary(id: Option<string>, displayName: Option<string>, lastUpdated: Option<string>, playlistId: Option<string>)

  function Field(r: Record, f: string): Option<string>
  {
    if f in r then Some(r[f]) else None
  }

  /** The projection `getAllUsers` applies to each record. */
  function Summarize(r: Record): (s: Summary)
    ensures s.id == Field(r, "id") && s.displayName == Field(r, "display_name")
    ensures s.lastUpdated == Field(r, LastUpdated) && s.playlistId == Field(r, "playlistId")
  {
    Summary(Field(r, "id"), Field(r, "display_name"), Field(r, LastUpdated), Field(r, "playlistId"))
  }

  class UserStorage {
    var users: map<string, Record>
    /** The ids of `users` in insertion order. */
    var order: seq<string>

    ghost predicate Valid()
      reads this
    {
      && NoDuplicates(order)
      && forall id :: id in users <==> id in order
    }

    /** The table `loadUsers` finds when there is no data file. */
    constructor ()
      ensures Valid() && users == map[] && order == []
    {
      users := map[];
      order := [];
    }

    /** `getUser(id)`: the stored record, or None (`null`) for an unknown id. */
    function GetUser(id: string): (r: Option<Record>)
      reads this
      ensures r.Some? <==> id in users
      ensures r.Some? ==> r.value == users[id]
    {
      if id in users then Some(users[id]) else None
    }

    /**
     * `setUser(id, userData)` at time now: the record becomes the merge of the old record,
     * the new data and the time stamp; it is returned; no other entry changes.
     */
    method SetUser(id: string, userData: Record, now: string) returns (r: Record)
      requires Valid()
      modifies this
      ensures Valid()
      ensures r == MergeRecord(old(GetUser(id)), userData, now)
      ensures users == old(users)[id := r]
      ensures order == if id in old(users) then old(order) else old(order) + [id]
    {
      var existing := GetUser(id);
      r := MergeRecord(existing, userData, now);
      if id !in users {
        order := order + [id];
      }
      users := users[id := r];
    }

    /** `getAllUsers()`: one summary per stored user, in insertion order. */
    function GetAllUsers(): (r: seq<Summary>)
      reads this
      requires Valid()
      ensures |r| == |order|
      ensures forall i :: 0 <= i < |order| ==> r[i] == Summarize(users[order[i]])
    {
      seq(|order|, i reads this requires 0 <= i < |order| && Valid() => Summarize(users[order[i]]))
    }

    /** `clearAllUsers()`: the table is emptied and the number of users it held is returned. */
    method ClearAllUsers() returns (count: nat)
      requires Valid()
      modifies this
      ensures Valid() && users == map[] && order == []
      ensures count == |old(users)|
    {
      count := |order|;
      TableSize(users, order);
      users := map[];
      order := [];
    }
  }

  /** The id list of a valid table is as long as the table. */
  lemma TableSize(users: map<string, Record>, order: seq<string>)
    requires NoDuplicates(order) && forall id :: id in users <==> id in order
    ensures |order| == |users|
  {
    ElementsCount(order);
    assert Elements(order) == users.Keys;
  }

  /** A valid table lists one summary per stored user. */
  lemma OneSummaryPerUser(s: UserStorage)
    requires s.Valid()
    ensures |s.GetAllUsers()| == |s.users|
  {
    TableSize(s.users, s.order);
  }
}

=== FILE: users_api.dfy ===
/**
 * The `/api/users` handler: CORS headers on every response, then a dispatch on the
 * request method over the user table.
 */
module UsersApi {
  import opened Common
  import opened UserStore

  /** The secret a DELETE must carry. */
  const AdminSecret: string := "vibecheck_admin_clear"

  /** The three headers set before any branch. */
  const CorsHeaders: seq<(string, string)> := [
    ("Access-Control-Allow-Origin", "*"),
    ("Access-Control-Allow-Methods", "GET, POST, DELETE, OPTIONS"),
    ("Access-Control-Allow-Headers", "Content-Type")]

  datatype Body =
    | NoBody
    | UserList(users: seq<Summary>, count: nat)
    | Deleted(message: string, deletedCount: nat)
    | Error(error: string)

  datatype Response = Response(status: nat, headers: seq<(string, string)>, body: Body)

  /** `handler(req, res)` for a request with the given method and `secret` query parameter. */
  method Handle(storage: UserStorage, httpMethod: string, secret: Option<string>) returns (res: Response)
    requires storage.Valid()
    modifies storage
    ensures storage.Valid()
    ensures res.headers == CorsHeaders
    ensures httpMethod == "OPTIONS" ==>
      res.status == 200 && res.body == NoBody && unchanged(storage)
    ensures httpMethod == "GET" ==>
      && res.status == 200 && unchanged(storage)
      && res.body == UserList(old(storage.GetAllUsers()), |old(storage.users)|)
    ensures httpMethod == "DELETE" && secret != Some(AdminSecret) ==>
      res.status == 401 && res.body == Error("Unauthorized") && unchanged(storage)
    ensures httpMethod == "DELETE" && secret == Some(AdminSecret) ==>
      && res.status == 200 && res.body == Deleted("All users deleted", |old(storage.users)|)
      && storage.users == map[] && storage.order == []
    ensures httpMethod !in {"OPTIONS", "GET", "DELETE"} ==>
      res.status == 405 && res.body == Error("Method not allowed") && unchanged(storage)
  {
    var headers := [];
    headers := headers + [CorsHeaders[0]];
    headers := headers + [CorsHeaders[1]];
    headers := headers + [CorsHeaders[2]];
    if httpMethod == "OPTIONS" {
      return Response(200, headers, NoBody);
    }
    if httpMethod == "GET" {
      var userList := storage.GetAllUsers();
      OneSummaryPerUser(storage);
      return Response(200, headers, UserList(userList, |userList|));
    }
    if httpMethod == "DELETE" {
      if secret != Some(AdminSecret) {
        return Response(401, headers, Error("Unauthorized"));
      }
      var deletedCount := storage.ClearAllUsers();
      return Response(200, headers, Deleted("All users deleted", deletedCount));
    }
    res := Response(405, headers, Error("Method not allowed"));
  }
}
